=== FILE: README.md ===
# Quote wizard model

A Dafny model of the quote wizard Lightning web component
(`force-app/main/default/lwc/quoteGenerator/quoteGenerator.js`). The
component lets a user:

- search the price book;
- pick products and set their quantities;
- review the resulting line items and their total;
- save the quote.

Saving creates the quote record, builds a PDF summary, stores the PDF against
the quote, downloads it, fires a confetti animation and resets the wizard.

The component's fields become one immutable `Wizard.State`. Each event
handler becomes a pure function from the state before the event to the state
after it. Handlers that reach the outside world return a `Wizard.Turn`: the
new state plus the effects they cause, in order (toasts, console logging,
the remote calls, the download, the confetti).

The remote services enter as `Outcomes.Reply` parameters, `Ok(value)` or
`Fail(fault)`:

- the product lookup (`getProducts`);
- `createQuote`;
- `savePdf`;
- the loading of the PDF libraries.

Three further inputs are also parameters:

- `render`, the PDF library turning the declarative document into its
  base64 payload;
- `date`, the day's locale date string;
- `confettiDefined`, whether the confetti library defined `window.confetti`.

Modules, leaf first:

- `Outcomes`: `Option`, `Fault` (the `body.message` and `message` of a
  caught error) and `Reply`.
- `Text`: the JavaScript string operations the component relies on. These
  are the ECMAScript whitespace class, `trim`, `toLowerCase`, `includes` and
  `replace(/\s+/g, '_')`.
- `Numbers`: `parseInt` without a radix (leading whitespace, a sign, a
  `0x` prefix, the longest digit prefix), `parseInt(v) || 0`, integer
  `toString`, and `toFixed(2)` over whole cents with a reader for it.
- `Records`: catalog entries, product cards and line items, plus the card
  CSS classes.
- `Search`: the filter and map of `handleSearchKeyUp`.
- `Selection`: the toggle and highlight of `handleSelectProduct`, and the
  row edit of `handleQuantityChange`.
- `Draft`: the line items and total built by `goToStep3`.
- `Document`: the table handed to the PDF library by `generatePdfBase64`,
  and `generateFileName`.
- `Wizard`: the state, every handler, the `handleSaveQuote` pipeline and
  `resetWizard`. It also holds an invariant kept by every handler.
- `Scenarios`: worked runs on concrete data. These are the catalog
  walk-through, a save that fails at the upload, a three-item total, a file
  name with spaces, and how quantity input is read.

Money is whole cents throughout, so `quantity * UnitPrice` and the sums are
exact.

A reader might expect a wizard like this to keep highlights across searches,
reject negative quantities, allow only the steps in order, and roll back a
failed save. The component does none of these things, and the model follows
what the component does:

- A new search rebuilds every candidate with the unselected card class (line
  64). Products already in the selection show unhighlighted until the next
  toggle.
- `parseInt(v) || 0` keeps negative numbers (line 96). Only input that does
  not parse, and zero, become 0.
- The step handlers are unguarded: any step can be reached from any other
  (lines 105-118). The save does not check the step either.
- After a failure past `createQuote`, the quote id and name stay set (lines
  131-132). The rest of the state stays as it was.
- A successful save goes back to step 1 (line 239). There is no separate
  "confirmed" step.
- `createQuote` receives no line totals (lines 123-128).
- The quantity edit addresses a row by position, not by product id (line
  95).

## Model

| member | source | states |
|---|---|---|
| Text.Trim | force-app/main/default/lwc/quoteGenerator/quoteGenerator.js:49 | the trimmed input neither starts nor ends with whitespace |
| Text.TrimInside | force-app/main/default/lwc/quoteGenerator/quoteGenerator.js:49 | the trimmed search input is the input with a whitespace prefix and a whitespace suffix cut off |
| Text.TrimEmpty | force-app/main/default/lwc/quoteGenerator/quoteGenerator.js:49-50 | the trimmed input is empty exactly when the input is all whitespace |
| Text.Lower | force-app/main/default/lwc/quoteGenerator/quoteGenerator.js:49 | lower-casing keeps the length and folds each character on its own |
| Text.Contains | force-app/main/default/lwc/quoteGenerator/quoteGenerator.js:57 | `includes`: the empty key is found in every name, and a found key is no longer than the name |
| Text.CollapseWhitespace | force-app/main/default/lwc/quoteGenerator/quoteGenerator.js:221-223 | replacing whitespace runs leaves no whitespace, never lengthens, and leaves whitespace-free text unchanged |
| Text.CollapseRun | force-app/main/default/lwc/quoteGenerator/quoteGenerator.js:221 | a word, a maximal whitespace run and the rest become the word, one underscore and the rest replaced |
| Text.CollapseIdempotent | force-app/main/default/lwc/quoteGenerator/quoteGenerator.js:221-223 | applying the replacement twice gives the same as once |
| Numbers.ParseInt | force-app/main/default/lwc/quoteGenerator/quoteGenerator.js:96 | `parseInt` yields a number only when the input holds a decimal digit |
| Numbers.QuantityOf | force-app/main/default/lwc/quoteGenerator/quoteGenerator.js:96 | `parseInt(v) \|\| 0`: NaN becomes 0, every parsed integer is kept, and a nonzero quantity needs a digit in the input |
| Numbers.IntToString | force-app/main/default/lwc/quoteGenerator/quoteGenerator.js:177 | `toString` of an integer is non-empty, starts with a digit or a minus sign, and has the minus sign exactly when the integer is negative; Numbers.IntToStringCanonical and Numbers.CanonicalUnique fix the rest of the text |
| Numbers.NatToStringValue | force-app/main/default/lwc/quoteGenerator/quoteGenerator.js:177 | the decimal numeral of a natural number reads back as that number |
| Numbers.IntToStringCanonical | force-app/main/default/lwc/quoteGenerator/quoteGenerator.js:177 | `toString` of an integer is a minus sign exactly for negatives followed by digits with no leading 0 unless the number is 0 |
| Numbers.CanonicalUnique | force-app/main/default/lwc/quoteGenerator/quoteGenerator.js:177 | a digit string without a superfluous leading 0 is the numeral of its own value, so the text of `toString` is fully determined (never "03" for 3) |
| Numbers.ParseIntOfToString | force-app/main/default/lwc/quoteGenerator/quoteGenerator.js:177 | `parseInt(n.toString())` is `n` for every integer written as a plain numeral, which JavaScript does below 10^21, so the document's quantity column and the quantity input agree |
| Numbers.Money | force-app/main/default/lwc/quoteGenerator/quoteGenerator.js:178-179 | the `toFixed(2)` form is at least four characters with the decimal point third from the end, and has a minus sign exactly when the amount is negative; Numbers.FixedCanonical fixes the digits |
| Numbers.FixedCanonical | force-app/main/default/lwc/quoteGenerator/quoteGenerator.js:178-179 | the unsigned `toFixed(2)` text is a canonical whole part, a point and two digits, and starts with 0 only below one unit (never "010.00") |
| Numbers.FixedRoundTrip | force-app/main/default/lwc/quoteGenerator/quoteGenerator.js:178-179 | the unsigned two-decimal form of an amount in cents reads back as that amount |
| Numbers.MoneyRoundTrip | force-app/main/default/lwc/quoteGenerator/quoteGenerator.js:178-179 | the `toFixed(2)` form of any amount in cents, negative ones included, reads back as that amount |
| Records.Candidate | force-app/main/default/lwc/quoteGenerator/quoteGenerator.js:58-65 | a candidate card has quantity 0, total 0, the unselected class, and carries its catalog entry's id, name and price |
| Search.SearchResults | force-app/main/default/lwc/quoteGenerator/quoteGenerator.js:56-65 | every candidate is a fresh card of a catalog entry whose lower-cased name contains the key, and every such entry has its candidate |
| Search.SearchResultsAppend | force-app/main/default/lwc/quoteGenerator/quoteGenerator.js:56-57 | the filter keeps catalog order: the results for two catalog parts are the first part's results followed by the second's |
| Search.SearchResultsSingle | force-app/main/default/lwc/quoteGenerator/quoteGenerator.js:57-65 | one entry yields its candidate exactly when its name matches |
| Selection.FindIndex | force-app/main/default/lwc/quoteGenerator/quoteGenerator.js:76 | `findIndex` finds nothing exactly when the id is absent, and otherwise finds the first position holding it |
| Selection.Find | force-app/main/default/lwc/quoteGenerator/quoteGenerator.js:81 | `find` finds nothing exactly when the id is absent, and otherwise the first card in the list with that id |
| Selection.Toggle | force-app/main/default/lwc/quoteGenerator/quoteGenerator.js:76-85 | a selected id loses one card; an unselected id appends the first candidate with that id; an id in neither list changes nothing |
| Selection.ToggleRemoves | force-app/main/default/lwc/quoteGenerator/quoteGenerator.js:78-79 | a selected id's card is cut out with the others kept in order, and with unique ids exactly the cards of other ids remain |
| Selection.ToggleIds | force-app/main/default/lwc/quoteGenerator/quoteGenerator.js:76-85 | toggling keeps ids unique, and the selected id set loses or gains exactly the toggled id |
| Selection.ToggleTwice | force-app/main/default/lwc/quoteGenerator/quoteGenerator.js:76-85 | toggling twice restores the id set; an unselected id restores the selection exactly, and a selected one comes back last as the candidate's copy |
| Selection.Highlight | force-app/main/default/lwc/quoteGenerator/quoteGenerator.js:87-91 | re-deriving classes keeps the cards' count, order and other fields |
| Selection.HighlightMarksSelection | force-app/main/default/lwc/quoteGenerator/quoteGenerator.js:87-91 | a card's class ends in " selected" exactly when its id is in the selection |
| Selection.FindHighlighted | force-app/main/default/lwc/quoteGenerator/quoteGenerator.js:87-91 | highlighting keeps every id in place, so finding an id in the highlighted cards finds the same product |
| Selection.SetQuantity | force-app/main/default/lwc/quoteGenerator/quoteGenerator.js:94-102 | only the edited row changes; its quantity is `parseInt(v) \|\| 0` and its total is quantity times unit price; a missing row changes nothing |
| Selection.SameIdsKeepsIds | force-app/main/default/lwc/quoteGenerator/quoteGenerator.js:97-102 | a row edit keeps the id set and its uniqueness |
| Draft.ToLineItem | force-app/main/default/lwc/quoteGenerator/quoteGenerator.js:110-116 | a line item copies its product's id, name, unit price, quantity and total, so a priced product gives a priced line |
| Draft.LineItems | force-app/main/default/lwc/quoteGenerator/quoteGenerator.js:108-116 | the line items are exactly the copies of the selected products with a positive quantity |
| Draft.Total | force-app/main/default/lwc/quoteGenerator/quoteGenerator.js:117 | the `reduce` over one line is that line's total, and a sum of non-negative line totals is non-negative |
| Draft.LineItemsAppend | force-app/main/default/lwc/quoteGenerator/quoteGenerator.js:108-109 | line items keep selection order |
| Draft.TotalAppend | force-app/main/default/lwc/quoteGenerator/quoteGenerator.js:117 | the sum of line totals splits over concatenation |
| Draft.DraftTotal | force-app/main/default/lwc/quoteGenerator/quoteGenerator.js:108-117 | for priced products, the review total equals quantity times price summed over the positive-quantity selection |
| Document.AmountCellShows | force-app/main/default/lwc/quoteGenerator/quoteGenerator.js:178-179 | a dollar cell reads back as the amount it shows |
| Document.ItemRow | force-app/main/default/lwc/quoteGenerator/quoteGenerator.js:175-180 | an item row is four plain cells, the first holding the product name |
| Document.ItemRowShows | force-app/main/default/lwc/quoteGenerator/quoteGenerator.js:175-180 | an item row is four plain cells: the name, a quantity that parses back, and the unit price and line total reading back |
| Document.GrandTotalRow | force-app/main/default/lwc/quoteGenerator/quoteGenerator.js:182-185 | the closing row is "Grand Total" across three columns followed by a plain amount cell |
| Document.TableBody | force-app/main/default/lwc/quoteGenerator/quoteGenerator.js:175-185 | the body has one row per line item in order, then the grand-total row |
| Document.TableShows | force-app/main/default/lwc/quoteGenerator/quoteGenerator.js:175-185 | row i reads back as line item i, and the last row reads back as the total |
| Document.BodyRowsFitHeader | force-app/main/default/lwc/quoteGenerator/quoteGenerator.js:174-185 | every body row, the grand total included, covers exactly the four header columns |
| Document.BuildPdf | force-app/main/default/lwc/quoteGenerator/quoteGenerator.js:167-207 | the document has the fixed header and the table body of the line items and total, and its date line shows the given date |
| Document.ProductPart | force-app/main/default/lwc/quoteGenerator/quoteGenerator.js:220-222 | the product part of the file name has no whitespace |
| Document.QuotePart | force-app/main/default/lwc/quoteGenerator/quoteGenerator.js:223 | the quote part has no whitespace when a quote name is given |
| Document.FileName | force-app/main/default/lwc/quoteGenerator/quoteGenerator.js:219-225 | the file name starts with "Quote_" and ends with ".pdf" |
| Document.FileNameNoWhitespace | force-app/main/default/lwc/quoteGenerator/quoteGenerator.js:219-225 | the file name has no whitespace when a quote name is given or the id has none |
| Document.FileNameVerbatim | force-app/main/default/lwc/quoteGenerator/quoteGenerator.js:219-225 | names without whitespace pass into the file name verbatim |
| Document.FileNameFallback | force-app/main/default/lwc/quoteGenerator/quoteGenerator.js:220-224 | with no line item and no quote name, the file name uses "NoProduct" and the quote id |
| Wizard.SearchFaultText | force-app/main/default/lwc/quoteGenerator/quoteGenerator.js:67 | the search error toast shows the error body's message when there is one, otherwise the error's message |
| Wizard.SaveFaultText | force-app/main/default/lwc/quoteGenerator/quoteGenerator.js:154 | the save error toast's text is the error body's message if there is one, otherwise the error's message if there is one, otherwise "Unknown error"; it is never empty |
| Wizard.Reset | force-app/main/default/lwc/quoteGenerator/quoteGenerator.js:233-242 | the reset state is the initial state, except that the PDF libraries stay loaded |
| Wizard.Connect | force-app/main/default/lwc/quoteGenerator/quoteGenerator.js:29-45 | with the libraries not yet loaded, a successful load marks them loaded with no effect at all, and a failed one shows the "Failed to load PDF libraries" toast and logs; only the flag changes |
| Wizard.SearchKeyUp | force-app/main/default/lwc/quoteGenerator/quoteGenerator.js:47-70 | only Enter acts; a blank key clears the candidates without a lookup; a successful lookup fills them from the filter and shows no toast; a failed one shows the error toast and keeps them |
| Wizard.SelectProduct | force-app/main/default/lwc/quoteGenerator/quoteGenerator.js:72-92 | keys other than Enter and Space do nothing; otherwise the id is toggled and the candidates re-highlighted; nothing else changes |
| Wizard.QuantityChange | force-app/main/default/lwc/quoteGenerator/quoteGenerator.js:94-103 | a quantity edit changes only the selection |
| Wizard.GoToStep1 | force-app/main/default/lwc/quoteGenerator/quoteGenerator.js:105 | only the step changes, to step 1 |
| Wizard.GoToStep2 | force-app/main/default/lwc/quoteGenerator/quoteGenerator.js:106 | only the step changes, to step 2 |
| Wizard.GoToStep3 | force-app/main/default/lwc/quoteGenerator/quoteGenerator.js:107-119 | the step becomes 3, the selection is untouched, the line items are built, and the total is their sum, which is the selection's amount when priced |
| Wizard.QuoteLines | force-app/main/default/lwc/quoteGenerator/quoteGenerator.js:123-128 | each line sent to `createQuote` carries its item's id, name, quantity and unit price, in order |
| Wizard.QuoteName | force-app/main/default/lwc/quoteGenerator/quoteGenerator.js:132 | the quote name is never empty: the returned name when there is one, otherwise "Quote_" followed by the quote id |
| Wizard.SaveQuote | force-app/main/default/lwc/quoteGenerator/quoteGenerator.js:121-158 | the quote is created first; success ends in the reset state; failure changes nothing but the quote id and name |
| Wizard.SaveQuoteFailure | force-app/main/default/lwc/quoteGenerator/quoteGenerator.js:121-158 | the effects of each failing step in full: a failed create gives only the request, the error toast and the log; a failed save-to-record gives the request, the "Quote created" toast, the save, the error toast and the log; no download or confetti ever follows |
| Wizard.SaveWithoutLibrary | force-app/main/default/lwc/quoteGenerator/quoteGenerator.js:154-161 | a created quote that cannot be rendered because the PDF library is not loaded gives exactly the request, the "Quote created" toast, the toast "PDF library not loaded" and the error log, keeps the step, and saves, downloads and celebrates nothing |
| Wizard.SaveQuoteSuccess | force-app/main/default/lwc/quoteGenerator/quoteGenerator.js:121-151 | a full save creates, announces, saves the payload under the file name, downloads the same payload and name, then fires confetti if defined |
| Wizard.SelectKeepsInv | force-app/main/default/lwc/quoteGenerator/quoteGenerator.js:72-92 | selecting keeps ids unique, selected products priced and candidates at quantity 0 |
| Wizard.QuantityChangeKeepsInv | force-app/main/default/lwc/quoteGenerator/quoteGenerator.js:94-103 | a quantity edit keeps the invariant |
| Wizard.SearchKeepsInv | force-app/main/default/lwc/quoteGenerator/quoteGenerator.js:47-70 | a search keeps the invariant |
| Wizard.GoToStep3KeepsInv | force-app/main/default/lwc/quoteGenerator/quoteGenerator.js:107-119 | building the review keeps the invariant: positive, priced lines and a total that is their sum |
| Wizard.SaveKeepsInv | force-app/main/default/lwc/quoteGenerator/quoteGenerator.js:121-158 | a save, successful or not, keeps the invariant |
| Wizard.ResetKeepsInv | force-app/main/default/lwc/quoteGenerator/quoteGenerator.js:233-242 | the reset state satisfies the invariant |
| Wizard.ApplyKeepsInv | force-app/main/default/lwc/quoteGenerator/quoteGenerator.js:29-158 | every handler keeps the invariant |
| Wizard.RunKeepsInv | force-app/main/default/lwc/quoteGenerator/quoteGenerator.js:29-158 | any sequence of events keeps the invariant |
| Wizard.ReachableInv | force-app/main/default/lwc/quoteGenerator/quoteGenerator.js:14-23 | the invariant holds in every state reachable from a fresh component |
| Wizard.SelectHighlights | force-app/main/default/lwc/quoteGenerator/quoteGenerator.js:87-91 | after a card is activated, a candidate is marked exactly when it is selected, with count, order and other fields kept |
| Wizard.SearchClearsHighlight | force-app/main/default/lwc/quoteGenerator/quoteGenerator.js:58-65 | a successful search shows every candidate unselected, even products already in the selection |
| Wizard.SelectTwice | force-app/main/default/lwc/quoteGenerator/quoteGenerator.js:72-92 | activating the same candidate twice restores the selected ids, and a re-added product returns with quantity 0 and total 0 |
| Scenarios.SearchWidget | force-app/main/default/lwc/quoteGenerator/quoteGenerator.js:56-65 | searching the two-product catalog for "widget" yields only the widget |
| Scenarios.NormaliseKey | force-app/main/default/lwc/quoteGenerator/quoteGenerator.js:49 | " Widget " becomes the key "widget" |
| Scenarios.WalkThrough | force-app/main/default/lwc/quoteGenerator/quoteGenerator.js:47-158 | search, pick, quantity 3, review 3 x $10.00 = $30.00, and save ending in the reset wizard with confetti |
| Scenarios.UploadFails | force-app/main/default/lwc/quoteGenerator/quoteGenerator.js:140-157 | a failed upload keeps the review step and its line items, shows the upload's error, and neither downloads nor celebrates |
| Scenarios.ThreeItemTotal | force-app/main/default/lwc/quoteGenerator/quoteGenerator.js:107-117 | three products, one at quantity 0, review as two lines totalling 69.97 |
| Scenarios.FileNameWithSpaces | force-app/main/default/lwc/quoteGenerator/quoteGenerator.js:219-225 | "Big  Widget" and "Q 001" give "Quote_Big_Widget_Q_001.pdf" |
| Scenarios.NegativeQuantity | force-app/main/default/lwc/quoteGenerator/quoteGenerator.js:96 | "-3" is kept as -3 |
| Scenarios.TrailingText | force-app/main/default/lwc/quoteGenerator/quoteGenerator.js:96 | "12abc" reads as 12 |
| Scenarios.HexQuantity | force-app/main/default/lwc/quoteGenerator/quoteGenerator.js:96 | "0x1A" reads as 26 |
| Scenarios.NonNumericQuantity | force-app/main/default/lwc/quoteGenerator/quoteGenerator.js:96 | "abc" and "" read as 0 |

## Left out

- Text.Lower: folds only ASCII A-Z. JavaScript's `toLowerCase` applies full Unicode case mapping; that table is not modelled.
- Text.TrimInside: the whitespace class is the ECMAScript WhiteSpace and LineTerminator code points. Characters outside the Basic Multilingual Plane are not distinguished from other characters.
- Numbers.ParseInt: integers are unbounded. JavaScript's float precision for numerals above 2^53 is not modelled, and neither is the `-0` result of "-0" (which `|| 0` turns into 0 anyway).
- Numbers.IntToString: writes every integer as a plain numeral. JavaScript writes magnitudes of 10^21 and above in exponent form ("1e+21"), which `parseInt` reads back as 1; quantities that large are not modelled, and Numbers.ParseIntOfToString covers only plain numerals.
- Numbers.Money: formats whole cents only. Fractional prices, float rounding in `toFixed`, and exponent notation for huge amounts are not modelled.
- Document.BuildPdf: fonts, coordinates, colours, column widths, `autoTable` styling, `lastAutoTable.finalY`, and the base64 encoding of `doc.output` are left to the `render` parameter.
- Wizard.SaveQuote: an exception thrown by the PDF library while rendering is not modelled. `render` always returns a payload.
- Wizard.SaveQuote: the date is a parameter; `new Date().toLocaleDateString()` depends on clock and locale.
- Wizard.QuantityChange: the row index is an integer. The component reads it as a `data-index` string; a string that names no row throws before anything is assigned, which the model treats like any missing row.
- Wizard.Connect: the three `loadScript` calls and `Promise.all` are collapsed into one reply. Setting `window.jsPDF` is not modelled.
- Asynchrony: each handler runs to completion in one step. Events arriving while a handler awaits a service are not interleaved.
- `triggerLocalDownload`, `fireConfetti` and `showToast` are recorded as effects, not performed. `console.error` is the `LogError` effect, without its argument.
- `@track` reactivity and the rebuilding of arrays for re-rendering are not modelled.
- The `isStep1`/`isStep2`/`isStep3` getters are left out; they only read `currentStep` for the template.
- `generateFileName` outside the save pipeline, where a missing quote name and id would print "undefined", is not modelled. Inside the pipeline the quote name is never empty.

=== FILE: document.dfy ===
/** The quote document of `generatePdfBase64` as the declarative table the
    PDF library is handed, and the file name of `generateFileName`. */
module Document {
  import opened Outcomes
  import opened Text
  import opened Numbers
  import opened Records

  /** A table cell: plain text, or text spanning several columns. */
  datatype Cell = Plain(content: string) | Spanning(content: string, colSpan: nat)

  /** What the component writes into the document: a title, the date line,
      the attribution line, the table's header and body, and a closing line. */
  datatype Pdf = Pdf(
    title: string,
    dateLine: string,
    preparedBy: string,
    head: seq<string>,
    body: seq<seq<Cell>>,
    closing: string)

  const Header: seq<string> := ["Product", "Quantity", "Unit Price", "Total Price"]

  /** The number of columns a cell covers. */
  function Width(c: Cell): nat {
    match c
    case Plain(_) => 1
    case Spanning(_, n) => n
  }

  function RowWidth(row: seq<Cell>): nat {
    if row == [] then 0 else Width(row[0]) + RowWidth(row[1..])
  }

  /** `text` is a dollar amount, "$" then the toFixed(2) form, that reads
      back as `cents`. */
  predicate ShowsAmount(text: string, cents: int) {
    |text| > 0 && text[0] == '$' && CentsOf(text[1..]) == Some(cents)
  }

  /** `row` shows the line item: four plain cells holding the product name,
      a quantity that parses back to the item's quantity, and dollar amounts
      that read back as the unit price and the line total. */
  predicate ShowsItem(row: seq<Cell>, li: LineItem) {
    && |row| == 4
    && row[0] == Plain(li.productName)
    && row[1].Plain? && QuantityOf(row[1].content) == li.quantity
    && row[2].Plain? && ShowsAmount(row[2].content, li.unitPrice)
    && row[3].Plain? && ShowsAmount(row[3].content, li.totalPrice)
  }

  /** `row` is the closing row: "Grand Total" across three columns, then a
      dollar amount that reads back as `total`. */
  predicate ShowsTotal(row: seq<Cell>, total: int) {
    && |row| == 2
    && row[0] == Spanning("Grand Total", 3)
    && row[1].Plain? && ShowsAmount(row[1].content, total)
  }

  /** The cell of `"$" + amount.toFixed(2)` for an amount in cents. */
  function AmountCell(cents: int): (c: Cell)
    ensures c.Plain? && |c.content| > 0 && c.content[0] == '$'
  {
    Plain("$" + Money(cents))
  }

  /** The dollar amount reads back as the amount it was made from. */
  lemma AmountCellShows(cents: int)
    ensures ShowsAmount(AmountCell(cents).content, cents)
  {
    MoneyRoundTrip(cents);
    assert AmountCell(cents).content[1..] == Money(cents);
  }

  /** The cell of `quantity.toString()`. */
  function QuantityCell(quantity: int): (c: Cell)
    ensures c.Plain?
  {
    Plain(IntToString(quantity))
  }

  /** The table row of one line item: name, quantity, unit price, line
      total. */
  function ItemRow(li: LineItem): (row: seq<Cell>)
    ensures |row| == 4 && row[0] == Plain(li.productName)
    ensures row[1].Plain? && row[2].Plain? && row[3].Plain?
  {
    [Plain(li.productName), QuantityCell(li.quantity), AmountCell(li.unitPrice), AmountCell(li.totalPrice)]
  }

  /** Every item row shows its line item. */
  lemma ItemRowShows(li: LineItem)
    ensures ShowsItem(ItemRow(li), li)
  {
    ParseIntOfToString(li.quantity);
    AmountCellShows(li.unitPrice);
    AmountCellShows(li.totalPrice);
  }

  /** The closing row: "Grand Total" across the first three columns, then the
      grand total. */
  function GrandTotalRow(total: int): (row: seq<Cell>)
    ensures |row| == 2 && row[0] == Spanning("Grand Total", 3) && row[1].Plain?
  {
    [Spanning("Grand Total", 3), AmountCell(total)]
  }

  /** The table body: one row per line item, in order, then the grand-total
      row. */
  function TableBody(items: seq<LineItem>, total: int): (body: seq<seq<Cell>>)
    ensures |body| == |items| + 1
    ensures forall i :: 0 <= i < |items| ==> body[i] == ItemRow(items[i])
    ensures body[|items|] == GrandTotalRow(total)
  {
    seq(|items|, i requires 0 <= i < |items| => ItemRow(items[i])) + [GrandTotalRow(total)]
  }

  /** The table reads back as what it was built from: row i shows line item
      i, and the last row shows the grand total. */
  lemma TableShows(items: seq<LineItem>, total: int)
    ensures var body := TableBody(items, total);
      && |body| == |items| + 1
      && (forall i :: 0 <= i < |items| ==> ShowsItem(body[i], items[i]))
      && ShowsTotal(body[|items|], total)
  {
    var body := TableBody(items, total);
    forall i | 0 <= i < |items| ensures ShowsItem(body[i], items[i]) {
      ItemRowShows(items[i]);
    }
    AmountCellShows(total);
  }

  /** The document for the line items and total under review. `date` is the
      locale date string of the day, supplied by the caller. */
  function BuildPdf(items: seq<LineItem>, total: int, date: string): (d: Pdf)
    ensures d.head == Header && d.body == TableBody(items, total)
    ensures d.dateLine == "Date: " + date
  {
    Pdf("Quote Summary", "Date: " + date, "Prepared By: Salesforce Quote Generator",
        Header, TableBody(items, total), "Thank you for your business!")
  }

  /** A row of four plain cells covers four columns. */
  lemma FourPlainCells(row: seq<Cell>)
    requires |row| == 4 && row[0].Plain? && row[1].Plain? && row[2].Plain? && row[3].Plain?
    ensures RowWidth(row) == 4
  {
    assert row[1..][1..][1..][1..] == [];
    assert RowWidth(row[1..][1..][1..]) == 1;
    assert RowWidth(row[1..][1..]) == 2;
  }

  /** Every body row, the grand-total row included, covers exactly the four
      header columns. */
  lemma BodyRowsFitHeader(items: seq<LineItem>, total: int)
    ensures forall row :: row in TableBody(items, total) ==> RowWidth(row) == |Header|
  {
    var body := TableBody(items, total);
    forall i | 0 <= i < |body| ensures RowWidth(body[i]) == 4 {
      if i < |items| {
        FourPlainCells(body[i]);
      } else {
        var row := GrandTotalRow(total);
        assert body[i] == row;
        assert row[1..][1..] == [];
        assert RowWidth(row[1..]) == 1;
      }
    }
  }

  /** The product part of the file name: the first item's product name with
      whitespace runs collapsed, or "NoProduct" when there is no item. */
  function ProductPart(items: seq<LineItem>): (r: string)
    ensures NoWhitespace(r)
  {
    if |items| > 0 then CollapseWhitespace(items[0].productName) else "NoProduct"
  }

  /** The quote part of the file name: the quote name with whitespace runs
      collapsed, or the quote id when the name is empty. */
  function QuotePart(quoteName: string, quoteId: string): (r: string)
    ensures quoteName != "" ==> NoWhitespace(r)
  {
    if quoteName != "" then CollapseWhitespace(quoteName) else quoteId
  }

  /** `generateFileName`: "Quote_", the product part, "_", the quote part,
      ".pdf". */
  function FileName(items: seq<LineItem>, quoteName: string, quoteId: string): (r: string)
    ensures |r| >= 11 && r[..6] == "Quote_" && r[|r| - 4..] == ".pdf"
  {
    "Quote_" + (ProductPart(items) + ("_" + (QuotePart(quoteName, quoteId) + ".pdf")))
  }

  /** The file name has no whitespace as long as a quote name is given or
      the quote id has none. */
  lemma FileNameNoWhitespace(items: seq<LineItem>, quoteName: string, quoteId: string)
    requires quoteName != "" || NoWhitespace(quoteId)
    ensures NoWhitespace(FileName(items, quoteName, quoteId))
  {
    var first := ProductPart(items);
    var q := QuotePart(quoteName, quoteId);
    assert NoWhitespace("Quote_") && NoWhitespace("_") && NoWhitespace(".pdf");
    NoWhitespaceConcat(q, ".pdf");
    NoWhitespaceConcat("_", q + ".pdf");
    NoWhitespaceConcat(first, "_" + (q + ".pdf"));
    NoWhitespaceConcat("Quote_", first + ("_" + (q + ".pdf")));
  }

  /** Names without whitespace pass into the file name verbatim. */
  lemma FileNameVerbatim(items: seq<LineItem>, quoteName: string, quoteId: string)
    requires |items| > 0 && NoWhitespace(items[0].productName)
    requires quoteName != "" && NoWhitespace(quoteName)
    ensures FileName(items, quoteName, quoteId) == "Quote_" + items[0].productName + "_" + quoteName + ".pdf"
  {
  }

  /** With no item and no quote name, the file name falls back to
      "NoProduct" and the quote id. */
  lemma FileNameFallback(quoteId: string)
    ensures FileName([], "", quoteId) == "Quote_NoProduct_" + quoteId + ".pdf"
  {
  }

  lemma NoWhitespaceConcat(a: string, b: string)
    requires NoWhitespace(a) && NoWhitespace(b)
    ensures NoWhitespace(a + b)
  {
    forall k | 0 <= k < |a + b| ensures !IsWhitespace((a + b)[k]) {
      if k < |a| { assert (a + b)[k] == a[k]; } else { assert (a + b)[k] == b[k - |a|]; }
    }
  }
}

=== FILE: draft.dfy ===
/** The review snapshot `goToStep3` takes: the selected products with a
    positive quantity become line items, and their totals are summed. */
module Draft {
  import opened Records

  /** The line item copied from a selected product. */
  function ToLineItem(p: Product): (li: LineItem)
    ensures li.productId == p.id && li.productName == p.name && li.unitPrice == p.unitPrice
    ensures li.quantity == p.quantity && li.totalPrice == p.totalPrice
    ensures Priced(p) ==> LinePriced(li)
  {
    LineItem(p.id, p.name, p.quantity, p.unitPrice, p.totalPrice)
  }

  /** The line items of a selection: exactly the copies of the products whose
      quantity is positive (zero and negative quantities are dropped). */
  function LineItems(selected: seq<Product>): (r: seq<LineItem>)
    ensures |r| <= |selected|
    ensures forall li :: li in r ==> li.quantity > 0
    ensures forall p :: p in selected && p.quantity > 0 ==> ToLineItem(p) in r
    ensures forall li :: li in r ==> exists p :: p in selected && ToLineItem(p) == li
    ensures (forall p :: p in selected ==> Priced(p)) ==> forall li :: li in r ==> LinePriced(li)
  {
    if selected == [] then []
    else
      var rest := LineItems(selected[1..]);
      assert forall p :: p in selected[1..] ==> p in selected;
      assert forall p :: p in selected ==> p == selected[0] || p in selected[1..];
      if selected[0].quantity > 0 then [ToLineItem(selected[0])] + rest else rest
  }

  /** `reduce((sum, i) => sum + i.totalPrice, 0)`: a left-to-right sum of the
      line totals. */
  function Total(items: seq<LineItem>): (r: int)
    ensures |items| == 1 ==> r == items[0].totalPrice
    ensures (forall li :: li in items ==> li.totalPrice >= 0) ==> r >= 0
  {
    if items == [] then 0
    else Total(items[..|items| - 1]) + items[|items| - 1].totalPrice
  }

  /** Reference amount of a selection, summed from the front: quantity times
      unit price over the products with a positive quantity. */
  function Revenue(selected: seq<Product>): int {
    if selected == [] then 0
    else
      (if selected[0].quantity > 0 then selected[0].quantity * selected[0].unitPrice else 0)
      + Revenue(selected[1..])
  }

  /** Line items keep selection order: a selection made of two parts yields
      the items of the first part followed by those of the second. */
  lemma {:induction false} LineItemsAppend(a: seq<Product>, b: seq<Product>)
    ensures LineItems(a + b) == LineItems(a) + LineItems(b)
    decreases |a|
  {
    if a == [] {
      assert a + b == b;
    } else {
      assert (a + b)[1..] == a[1..] + b;
      LineItemsAppend(a[1..], b);
    }
  }

  /** The sum splits over concatenation. */
  lemma {:induction false} TotalAppend(a: seq<LineItem>, b: seq<LineItem>)
    ensures Total(a + b) == Total(a) + Total(b)
    decreases |b|
  {
    if b == [] {
      assert a + b == a;
    } else {
      var ab := a + b;
      assert ab[..|ab| - 1] == a + b[..|b| - 1];
      TotalAppend(a, b[..|b| - 1]);
    }
  }

  /** When every selected product is priced (total = quantity x unit price),
      the grand total of the review snapshot is the reference amount of the
      selection: the sum is exact and counts each positive-quantity product
      once. */
  lemma {:induction false} DraftTotal(selected: seq<Product>)
    requires forall p :: p in selected ==> Priced(p)
    ensures Total(LineItems(selected)) == Revenue(selected)
    decreases |selected|
  {
    if selected != [] {
      var p := selected[0];
      assert forall q :: q in selected[1..] ==> q in selected;
      DraftTotal(selected[1..]);
      var head := if p.quantity > 0 then [ToLineItem(p)] else [];
      assert LineItems(selected) == head + LineItems(selected[1..]);
      TotalAppend(head, LineItems(selected[1..]));
      assert Total(head) == if p.quantity > 0 then p.quantity * p.unitPrice else 0 by {
        if p.quantity > 0 {
          assert head[..0] == [];
          assert Priced(p);
        }
      }
    }
  }
}

=== FILE: numbers.dfy ===
/** Integer reading and writing as the component does it: `parseInt` with no
    radix argument, `Number.prototype.toString` on integers, and `toFixed(2)`
    on amounts held as integer cents. */
module Numbers {
  import opened Outcomes
  import opened Text

  predicate IsDecimalDigit(c: char) {
    '0' <= c <= '9'
  }

  predicate IsHexDigit(c: char) {
    IsDecimalDigit(c) || 'a' <= c <= 'f' || 'A' <= c <= 'F'
  }

  /** Whether `c` is a digit of the given radix (10 or 16). */
  predicate IsDigitIn(c: char, radix: nat) {
    if radix == 16 then IsHexDigit(c) else IsDecimalDigit(c)
  }

  predicate AllDigits(s: string, radix: nat) {
    forall i :: 0 <= i < |s| ==> IsDigitIn(s[i], radix)
  }

  function DigitValue(c: char): (d: nat)
    requires IsHexDigit(c)
    ensures d < 16
    ensures IsDecimalDigit(c) ==> d < 10
  {
    if IsDecimalDigit(c) then c as int - '0' as int
    else if 'a' <= c <= 'f' then c as int - 'a' as int + 10
    else c as int - 'A' as int + 10
  }

  /** The decimal digit character for `d`. */
  function DecimalDigit(d: nat): (c: char)
    requires d < 10
    ensures IsDecimalDigit(c) && DigitValue(c) == d
  {
    ('0' as int + d) as char
  }

  /** The value of a digit string, most significant digit first. */
  function ValueOf(ds: string, radix: nat): nat
    requires radix == 10 || radix == 16
    requires AllDigits(ds, radix)
  {
    if ds == [] then 0
    else ValueOf(ds[..|ds| - 1], radix) * radix + DigitValue(ds[|ds| - 1])
  }

  /** The longest prefix of `s` whose characters are all digits of `radix`. */
  function DigitPrefix(s: string, radix: nat): (ds: string)
    ensures |ds| <= |s| && ds == s[..|ds|]
    ensures AllDigits(ds, radix)
    ensures |ds| == |s| || !IsDigitIn(s[|ds|], radix)
  {
    if |s| > 0 && IsDigitIn(s[0], radix) then
      var ds := [s[0]] + DigitPrefix(s[1..], radix);
      assert ds == s[..|ds|] by {
        assert s[..|ds|] == [s[0]] + s[1..][..|ds| - 1];
      }
      ds
    else
      []
  }

  /** `parseInt(s)` with no radix argument; `None` stands for NaN. Leading
      whitespace is skipped, one sign is read, a `0x`/`0X` prefix switches to
      radix 16, and the longest run of digits that follows is the number;
      whatever comes after that run is ignored. */
  function ParseInt(s: string): (r: Option<int>)
    ensures r.Some? ==> exists k :: 0 <= k < |s| && IsDigitIn(s[k], 10)
  {
    var t := TrimStart(s);
    var neg := |t| > 0 && t[0] == '-';
    var u := if |t| > 0 && (t[0] == '-' || t[0] == '+') then t[1..] else t;
    var hex := |u| >= 2 && u[0] == '0' && (u[1] == 'x' || u[1] == 'X');
    var radix := if hex then 16 else 10;
    var ds := DigitPrefix(if hex then u[2..] else u, radix);
    if ds == [] then None
    else
      assert IsDigitIn(s[|s| - |u|], 10) by {
        assert u[0] == s[|s| - |u|];
        if !hex { assert ds[0] == u[0]; }
      }
      var v: int := ValueOf(ds, radix);
      Some(if neg then -v else v)
  }

  /** `parseInt(raw) || 0`: NaN (and zero) become 0, every other parsed
      integer, negative ones included, is kept. */
  function QuantityOf(raw: string): (q: int)
    ensures ParseInt(raw).None? ==> q == 0
    ensures ParseInt(raw).Some? ==> q == ParseInt(raw).value
    ensures q != 0 ==> exists k :: 0 <= k < |raw| && IsDigitIn(raw[k], 10)
  {
    match ParseInt(raw)
    case None => 0
    case Some(v) => v
  }

  /** The decimal numeral of `n`: digits only, never a superfluous leading 0. */
  function NatToString(n: nat): (r: string)
    ensures |r| > 0 && AllDigits(r, 10)
    ensures r[0] == '0' ==> r == "0"
  {
    if n < 10 then [DecimalDigit(n)]
    else NatToString(n / 10) + [DecimalDigit(n % 10)]
  }

  /** `n.toString()` for an integer `n`. */
  function IntToString(n: int): (r: string)
    ensures |r| > 0 && (r[0] == '-' || IsDecimalDigit(r[0]))
    ensures r[0] == '-' <==> n < 0
  {
    if n < 0 then "-" + NatToString(-n) else NatToString(n)
  }

  /** `(cents / 100).toFixed(2)` for an amount held as whole cents: a sign for
      negative amounts, then the unsigned amount. */
  function Money(cents: int): (r: string)
    ensures |r| >= 4 && r[|r| - 3] == '.'
    ensures r[0] == '-' <==> cents < 0
  {
    var a := if cents < 0 then -cents else cents;
    (if cents < 0 then "-" else "") + Fixed(a)
  }

  /** An unsigned amount in cents: the whole units, a point and exactly two
      digits. */
  function Fixed(a: nat): (r: string)
    ensures |r| >= 4 && r[|r| - 3] == '.' && IsDecimalDigit(r[0])
  {
    NatToString(a / 100) + "." + TwoDigits(a % 100)
  }

  function TwoDigits(d: nat): string
    requires d < 100
  {
    [DecimalDigit(d / 10), DecimalDigit(d % 10)]
  }

  /** Reads back a string of the shape `Money` writes: an optional minus sign,
      then what `FixedValue` reads. */
  function CentsOf(s: string): Option<int> {
    var neg := |s| > 0 && s[0] == '-';
    match FixedValue(if neg then s[1..] else s)
    case None => None
    case Some(v) => Some(if neg then -(v as int) else v as int)
  }

  /** Reads back decimal digits, a point and two decimal digits as cents. */
  function FixedValue(body: string): Option<nat> {
    if |body| < 4 || body[|body| - 3] != '.' then None
    else
      var whole := body[..|body| - 3];
      var frac := body[|body| - 2..];
      if !AllDigits(whole, 10) || !AllDigits(frac, 10) then None
      else Some(ValueOf(whole, 10) * 100 + ValueOf(frac, 10))
  }

  /** The numeral of `n` reads back as `n`. */
  lemma {:induction false} NatToStringValue(n: nat)
    ensures ValueOf(NatToString(n), 10) == n
  {
    var r := NatToString(n);
    if n >= 10 {
      NatToStringValue(n / 10);
      assert r[..|r| - 1] == NatToString(n / 10);
    }
  }

  /** A decimal numeral in the form `toString` writes: digits only, and no
      leading 0 unless the numeral is "0" itself. */
  predicate Canonical(ds: string) {
    |ds| > 0 && AllDigits(ds, 10) && (ds[0] == '0' ==> ds == "0")
  }

  /** `n.toString()` is a minus sign exactly for negative `n`, followed by a
      canonical numeral. */
  lemma IntToStringCanonical(n: int)
    ensures var r := IntToString(n);
            (r[0] == '-' <==> n < 0) && Canonical(if n < 0 then r[1..] else r)
  {
  }

  /** A numeral whose first digit is not 0 is worth at least 1. */
  lemma {:induction false} LeadingDigitPositive(ds: string)
    requires |ds| > 0 && AllDigits(ds, 10) && ds[0] != '0'
    ensures ValueOf(ds, 10) >= 1
    decreases |ds|
  {
    if |ds| > 1 {
      LeadingDigitPositive(ds[..|ds| - 1]);
    }
  }

  /** The canonical numeral of a value is unique: it is the one
      `NatToString` writes, so no other text (such as "03") reads back as
      the same number while being canonical. */
  lemma {:induction false} CanonicalUnique(ds: string)
    requires Canonical(ds)
    ensures NatToString(ValueOf(ds, 10)) == ds
    decreases |ds|
  {
    var last := ds[|ds| - 1];
    assert DecimalDigit(DigitValue(last)) == last;
    if |ds| > 1 {
      var init := ds[..|ds| - 1];
      assert init[0] == ds[0] != '0';
      LeadingDigitPositive(init);
      CanonicalUnique(init);
      assert ds == init + [last];
    }
  }

  /** `toFixed(2)` of an unsigned amount: a canonical whole part, a point and
      exactly two decimal digits; the text begins with 0 only below one unit. */
  lemma FixedCanonical(a: nat)
    ensures var r := Fixed(a);
            && Canonical(r[..|r| - 3]) && r[|r| - 3] == '.'
            && |r[|r| - 2..]| == 2 && AllDigits(r[|r| - 2..], 10)
            && (r[0] == '0' ==> |r| == 4)
  {
    var r := Fixed(a);
    var w := NatToString(a / 100);
    assert r[..|r| - 3] == w;
    assert r[|r| - 2..] == TwoDigits(a % 100);
  }

  /** A string made only of digits is its own longest digit prefix. */
  lemma {:induction false} DigitPrefixOfDigits(s: string, radix: nat)
    requires AllDigits(s, radix)
    ensures DigitPrefix(s, radix) == s
    decreases |s|
  {
    if |s| > 0 {
      DigitPrefixOfDigits(s[1..], radix);
    }
  }

  /** `parseInt(n.toString()) === n` for the plain numerals `IntToString`
      writes: the quantity column of the quote document and the quantity
      input agree. */
  lemma ParseIntOfToString(n: int)
    ensures ParseInt(IntToString(n)) == Some(n)
    ensures QuantityOf(IntToString(n)) == n
  {
    var m := if n < 0 then -n else n;
    var s := IntToString(n);
    var digits := NatToString(m);
    assert TrimStart(s) == s;
    var u := if n < 0 then s[1..] else s;
    assert u == digits;
    DigitPrefixOfDigits(digits, 10);
    NatToStringValue(m);
  }

  /** Two digits read back as the number they were written from. */
  lemma TwoDigitsValue(d: nat)
    requires d < 100
    ensures AllDigits(TwoDigits(d), 10) && ValueOf(TwoDigits(d), 10) == d
  {
    var t := TwoDigits(d);
    assert t[..1] == [t[0]];
    assert [t[0]][..0] == [];
    assert ValueOf([t[0]], 10) == d / 10;
  }

  /** The unsigned amount reads back as itself. */
  lemma FixedRoundTrip(a: nat)
    ensures FixedValue(Fixed(a)) == Some(a)
  {
    var whole := NatToString(a / 100);
    var frac := TwoDigits(a % 100);
    var body := Fixed(a);
    assert body[..|body| - 3] == whole;
    assert body[|body| - 2..] == frac;
    NatToStringValue(a / 100);
    TwoDigitsValue(a % 100);
  }

  /** `Money` loses nothing: the amount in cents can be read back from it. */
  lemma MoneyRoundTrip(cents: int)
    ensures CentsOf(Money(cents)) == Some(cents)
  {
    var a := if cents < 0 then -cents else cents;
    var s := Money(cents);
    FixedRoundTrip(a);
    if cents < 0 {
      assert s[1..] == Fixed(a);
    } else {
      assert s == Fixed(a);
    }
  }
}

=== FILE: outcomes.dfy ===
/** Values that stand in for JavaScript's optional fields and for the replies of
    the remote services the wizard calls. */
module Outcomes {

  /** A value that may be absent (`undefined` or `null` in the component). */
  datatype Option<+T> = None | Some(value: T)

  /** The two places a service error can carry its text: `error.body.message`
      and `error.message`. An empty string stands for a missing or empty field,
      both of which are falsy to the `||` operator the component uses. */
  datatype Fault = Fault(body: string, message: string)

  /** What an awaited service call produced: its value, or the error it threw. */
  datatype Reply<+T> = Ok(value: T) | Fail(fault: Fault)
}

=== FILE: records.dfy ===
/** The shapes of the records the wizard keeps: catalog entries as the
    product lookup returns them, product cards (used both for search
    candidates and for selected products), and quote line items. Amounts are
    whole cents. */
module Records {

  /** One price-book entry from the product lookup: `Product2.Id`,
      `Product2.Name` and `UnitPrice`. */
  datatype CatalogEntry = CatalogEntry(productId: string, productName: string, unitPrice: int)

  /** A product card. Search candidates and selected products share this
      shape: a selected product is a copy of the candidate it was picked from. */
  datatype Product = Product(
    id: string,
    name: string,
    unitPrice: int,
    quantity: int,
    totalPrice: int,
    cssClass: string)

  /** A line of the quote under review. */
  datatype LineItem = LineItem(
    productId: string,
    productName: string,
    quantity: int,
    unitPrice: int,
    totalPrice: int)

  /** The CSS class of an unselected card. */
  const CardClass: string := "product-card slds-box slds-box_link slds-p-around_medium"

  /** What is appended to the card class of a selected product. */
  const SelectedSuffix: string := " selected"

  /** The card class that marks a product as selected or not. */
  function CardClassFor(selected: bool): string {
    if selected then CardClass + SelectedSuffix else CardClass
  }

  /** Whether a card class carries the selected marker at its end. */
  predicate MarkedSelected(c: string) {
    |c| >= |SelectedSuffix| && c[|c| - |SelectedSuffix|..] == SelectedSuffix
  }

  /** A card whose total is its quantity times its unit price. */
  predicate Priced(p: Product) {
    p.totalPrice == p.quantity * p.unitPrice
  }

  /** A line item whose total is its quantity times its unit price. */
  predicate LinePriced(li: LineItem) {
    li.totalPrice == li.quantity * li.unitPrice
  }

  /** The fresh, unselected candidate card built from a catalog entry. */
  function Candidate(e: CatalogEntry): (p: Product)
    ensures p.quantity == 0 && p.totalPrice == 0 && Priced(p)
    ensures p.cssClass == CardClass
    ensures EntryOf(p) == e
  {
    Product(e.productId, e.productName, e.unitPrice, 0, 0, CardClass)
  }

  /** The catalog fields of a card. */
  function EntryOf(p: Product): CatalogEntry {
    CatalogEntry(p.id, p.name, p.unitPrice)
  }
}

=== FILE: scenarios.dfy ===
/** Worked runs of the wizard on concrete data: the catalog walk-through of
    one quote, a save that fails at the document upload, the total of a
    three-item quote, a file name, and how quantity input is read.
    Lemmas about particular strings take them as parameters fixed by a
    `requires`, which keeps the verifier from unfolding the string functions
    on the literals eagerly. */
module Scenarios {
  import opened Outcomes
  import opened Text
  import opened Numbers
  import opened Records
  import opened Search
  import opened Selection
  import opened Draft
  import opened Document
  import opened Wizard

  const Catalog: seq<CatalogEntry> :=
    [CatalogEntry("P1", "Widget", 1000), CatalogEntry("P2", "Gadget", 500)]

  const Widget: Product := Candidate(Catalog[0])

  /** Searching the two-product catalog for "widget" finds only the widget. */
  lemma SearchWidget()
    ensures SearchResults(Catalog, "widget") == [Widget]
  {
    assert Lower("Widget") == "widget";
    assert OccursAt(Lower("Widget"), "widget", 0);
    assert Lower("Gadget") == "gadget";
    assert "gadget"[0..6][0] != "widget"[0];
    assert !OccursAt("gadget", "widget", 0);
    assert forall i :: OccursAt("gadget", "widget", i) ==> i == 0;
    assert !Matches(Catalog[1], "widget");
    assert Catalog[1..][1..] == [];
  }

  /** A typed key is trimmed and lower-cased. (The key is a parameter fixed by
      `requires`, so that the literal is not unfolded eagerly.) */
  lemma NormaliseKey(key: string)
    requires key == " Widget "
    ensures Lower(Trim(key)) == "widget"
  {
    PaddedWidgetStart(key);
    PaddedWidgetEnd(key[1..]);
    assert Trim(key) == "Widget";
  }

  lemma PaddedWidgetStart(key: string)
    requires key == " Widget "
    ensures TrimStart(key) == key[1..] && key[1..] == "Widget "
  {
    assert LeadingRun(key[1..]) == 0;
    assert LeadingRun(key) == 1;
  }

  lemma PaddedWidgetEnd(t: string)
    requires t == "Widget "
    ensures TrimEnd(t) == "Widget"
  {
    assert TrailingRun(t[..|t| - 1]) == 0;
    assert TrailingRun(t) == 1;
  }

  lemma WidgetTrimmed()
    ensures Trim("widget") == "widget"
  {
    assert LeadingRun("widget") == 0;
    assert TrailingRun("widget") == 0;
  }

  lemma WidgetLower()
    ensures Lower("widget") == "widget"
  {
  }

  lemma KeyWidget()
    ensures Lower(Trim("widget")) == "widget"
  {
    WidgetTrimmed();
    WidgetLower();
  }

  lemma SearchStep(s: State)
    ensures SearchKeyUp(s, 13, "widget", Ok(Catalog)).state == s.(searchKey := "widget", filtered := [Widget])
  {
    KeyWidget();
    SearchWidget();
  }

  lemma SelectStep(s: State)
    requires s.selected == [] && s.filtered == [Widget]
    ensures SelectProduct(s, Click, "P1").selected == [Widget]
  {
    assert "P1" !in Ids(s.selected);
    assert FindIndex(s.filtered, "P1") == Some(0);
  }

  lemma QuantityStep(s: State)
    requires s.selected == [Widget]
    ensures QuantityChange(s, 0, "3").selected == [Widget.(quantity := 3, totalPrice := 3000)]
  {
    ParseIntOfToString(3);
    assert IntToString(3) == "3";
  }

  lemma ReviewStep(s: State)
    requires s.selected == [Widget.(quantity := 3, totalPrice := 3000)]
    ensures GoToStep3(s).lineItems == [LineItem("P1", "Widget", 3, 1000, 3000)]
    ensures GoToStep3(s).totalAmount == 3000
  {
    assert s.selected[1..] == [];
    var items := [LineItem("P1", "Widget", 3, 1000, 3000)];
    assert LineItems(s.selected) == items;
    assert items[..0] == [];
  }

  /** The walk-through: search "widget", pick it, set quantity 3, review, and
      save with every service succeeding. The review shows one line of 3 x
      $10.00 = $30.00, and the save ends in the reset wizard. */
  lemma WalkThrough(render: Pdf -> string, date: string)
    ensures var s0 := Connect(Initial, Ok(())).state;
            var s1 := SearchKeyUp(s0, 13, "widget", Ok(Catalog)).state;
            var s2 := SelectProduct(s1, Click, "P1");
            var s3 := QuantityChange(s2, 0, "3");
            var s4 := GoToStep3(s3);
            var t := SaveQuote(s4, Ok(QuoteRecord("Q1", "")), render, date, Ok(()), true);
            && s1.filtered == [Widget]
            && s2.selected == [Widget]
            && s3.selected[0].totalPrice == 3000
            && s4.lineItems == [LineItem("P1", "Widget", 3, 1000, 3000)]
            && s4.totalAmount == 3000
            && s4.step == Step3
            && t.state.step == Step1 && t.state.selected == [] && t.state.filtered == []
            && t.state.lineItems == [] && t.state.totalAmount == 0
            && Confetti in t.effects
  {
    var s0 := Connect(Initial, Ok(())).state;
    assert s0.pdfReady;
    SearchStep(s0);
    var s1 := SearchKeyUp(s0, 13, "widget", Ok(Catalog)).state;
    SelectStep(s1);
    var s2 := SelectProduct(s1, Click, "P1");
    QuantityStep(s2);
    var s3 := QuantityChange(s2, 0, "3");
    ReviewStep(s3);
    var s4 := GoToStep3(s3);
    assert s4.pdfReady;
    SaveQuoteSuccess(s4, Ok(QuoteRecord("Q1", "")), render, date, Ok(()), true);
  }

  /** A save that fails at the document upload keeps the wizard on the
      review step with its line items, reports the upload's error, and
      neither downloads nor celebrates. */
  lemma UploadFails(s: State, render: Pdf -> string, date: string)
    requires s.step == Step3 && s.pdfReady
    ensures var t := SaveQuote(s, Ok(QuoteRecord("Q1", "Q-0001")), render, date,
                               Fail(Fault("Storage limit exceeded", "")), true);
            && t.state.step == Step3
            && t.state.lineItems == s.lineItems && t.state.totalAmount == s.totalAmount
            && t.state.quoteName == Some("Q-0001")
            && t.effects[|t.effects| - 2] == Toast("Error", "Storage limit exceeded", Error)
            && forall e :: e in t.effects ==> !e.Download? && !e.Confetti?
  {
    SaveQuoteFailure(s, Ok(QuoteRecord("Q1", "Q-0001")), render, date,
                     Fail(Fault("Storage limit exceeded", "")), true);
  }

  /** Three selected products with differing quantities, one of them zero:
      the review keeps the two with a positive quantity and totals them
      exactly. */
  lemma ThreeItemTotal()
    ensures var sel := [ Product("A", "Bolt", 250, 4, 1000, CardClass),
                         Product("B", "Nut", 75, 0, 0, CardClass),
                         Product("C", "Gear", 1999, 3, 5997, CardClass) ];
            var r := GoToStep3(Initial.(selected := sel));
            |r.lineItems| == 2 && r.totalAmount == 6997
  {
    var sel := [ Product("A", "Bolt", 250, 4, 1000, CardClass),
                 Product("B", "Nut", 75, 0, 0, CardClass),
                 Product("C", "Gear", 1999, 3, 5997, CardClass) ];
    assert sel[1..][1..][1..] == [];
    assert LineItems(sel[1..][1..]) == [ToLineItem(sel[2])];
    assert LineItems(sel[1..]) == [ToLineItem(sel[2])];
    var items := LineItems(sel);
    assert items == [ToLineItem(sel[0]), ToLineItem(sel[2])];
    assert items[..1] == [ToLineItem(sel[0])];
    assert items[..1][..0] == [];
    assert Total(items[..1]) == 1000;
    assert Total(items) == Total(items[..1]) + 5997;
  }

  // The strings below are parameters fixed by `requires`, so that the
  // literals are not unfolded eagerly.
  lemma BigWidgetParts(name: string, word: string, run: string, rest: string)
    requires name == "Big  Widget" && word == "Big" && run == "  " && rest == "Widget"
    ensures NoWhitespace(word) && AllWhitespace(run) && !IsWhitespace(rest[0])
    ensures name == word + run + rest
    ensures CollapseWhitespace(rest) == rest
    ensures word + "_" + rest == "Big_Widget"
  {
  }

  lemma CollapseBigWidget(name: string)
    requires name == "Big  Widget"
    ensures CollapseWhitespace(name) == "Big_Widget"
  {
    var word, run, rest := "Big", "  ", "Widget";
    BigWidgetParts(name, word, run, rest);
    CollapseRun(word, run, rest);
  }

  lemma QuoteNameParts(name: string, word: string, run: string, rest: string)
    requires name == "Q 001" && word == "Q" && run == " " && rest == "001"
    ensures NoWhitespace(word) && AllWhitespace(run) && !IsWhitespace(rest[0])
    ensures name == word + run + rest
    ensures CollapseWhitespace(rest) == rest
    ensures word + "_" + rest == "Q_001"
  {
  }

  lemma CollapseQuoteName(name: string)
    requires name == "Q 001"
    ensures CollapseWhitespace(name) == "Q_001"
  {
    var word, run, rest := "Q", " ", "001";
    QuoteNameParts(name, word, run, rest);
    CollapseRun(word, run, rest);
  }

  /** A product name and a quote name with spaces become one file name with
      underscores. */
  lemma FileNameWithSpaces(product: string, quoteName: string)
    requires product == "Big  Widget" && quoteName == "Q 001"
    ensures FileName([LineItem("P1", product, 1, 100, 100)], quoteName, "a0Q") == "Quote_Big_Widget_Q_001.pdf"
  {
    CollapseBigWidget(product);
    CollapseQuoteName(quoteName);
    var items := [LineItem("P1", product, 1, 100, 100)];
    assert ProductPart(items) == "Big_Widget";
    assert QuotePart(quoteName, "a0Q") == "Q_001";
    FileNameText();
  }

  lemma FileNameText()
    ensures "Quote_" + ("Big_Widget" + ("_" + ("Q_001" + ".pdf"))) == "Quote_Big_Widget_Q_001.pdf"
  {
  }

  /** A negative quantity is kept. */
  lemma NegativeQuantity()
    ensures QuantityOf("-3") == -3
  {
    ParseIntOfToString(-3);
    assert IntToString(-3) == "-3";
  }

  /** Text after the digits is ignored. */
  lemma TrailingText()
    ensures QuantityOf("12abc") == 12
  {
    assert LeadingRun("12abc") == 0;
    assert DigitPrefix("abc", 10) == "";
    assert DigitPrefix("2abc", 10) == "2";
    assert DigitPrefix("12abc", 10) == "12";
    assert ValueOf("12", 10) == 12 by { assert "12"[..1] == "1"; assert "1"[..0] == ""; }
  }

  /** A `0x` prefix reads the digits as hexadecimal. (The input is a
      parameter fixed by `requires`, so that the literal is not unfolded
      eagerly.) */
  lemma HexQuantity(raw: string)
    requires raw == "0x1A"
    ensures QuantityOf(raw) == 26
  {
    assert LeadingRun(raw) == 0;
    HexDigits(raw[2..]);
  }

  lemma HexDigits(ds: string)
    requires ds == "1A"
    ensures DigitPrefix(ds, 16) == ds && ValueOf(ds, 16) == 26
  {
    assert DigitPrefix(ds[2..], 16) == "";
    assert DigitPrefix(ds[1..], 16) == ds[1..];
    assert ds[..1] == "1" && "1"[..0] == "";
  }

  /** Text that is not a number becomes 0. */
  lemma NonNumericQuantity()
    ensures QuantityOf("abc") == 0
    ensures QuantityOf("") == 0
  {
    assert LeadingRun("abc") == 0;
    assert DigitPrefix("abc", 10) == "";
  }
}

=== FILE: search.dfy ===
/** The search filter of `handleSearchKeyUp`: from the whole catalog, keep the
    entries whose lower-cased name contains the search key, in catalog order,
    as fresh unselected candidates. */
module Search {
  import opened Text
  import opened Records

  /** Whether a catalog entry is found by the (already normalised) key. */
  predicate Matches(e: CatalogEntry, key: string) {
    Contains(Lower(e.productName), key)
  }

  /** The candidate list for `key`. Every candidate is a fresh card (quantity
      0, total 0, unselected class) of a matching catalog entry, and every
      matching entry has its candidate in the list. */
  function SearchResults(catalog: seq<CatalogEntry>, key: string): (r: seq<Product>)
    ensures |r| <= |catalog|
    ensures forall p :: p in r ==> p.quantity == 0 && p.totalPrice == 0 && p.cssClass == CardClass
    ensures forall p :: p in r ==> EntryOf(p) in catalog && Matches(EntryOf(p), key)
    ensures forall e :: e in catalog && Matches(e, key) ==> Candidate(e) in r
  {
    if catalog == [] then []
    else
      var rest := SearchResults(catalog[1..], key);
      assert forall e :: e in catalog[1..] ==> e in catalog;
      assert forall e :: e in catalog ==> e == catalog[0] || e in catalog[1..];
      if Matches(catalog[0], key) then [Candidate(catalog[0])] + rest else rest
  }

  /** The filter keeps catalog order: searching a catalog made of two parts
      gives the results of the first part followed by those of the second. */
  lemma {:induction false} SearchResultsAppend(a: seq<CatalogEntry>, b: seq<CatalogEntry>, key: string)
    ensures SearchResults(a + b, key) == SearchResults(a, key) + SearchResults(b, key)
    decreases |a|
  {
    if a == [] {
      assert a + b == b;
    } else {
      assert (a + b)[1..] == a[1..] + b;
      SearchResultsAppend(a[1..], b, key);
    }
  }

  /** A single entry yields its candidate when it matches and nothing
      otherwise; with `SearchResultsAppend` this fixes the result as the
      in-order list of the candidates of the matching entries. */
  lemma SearchResultsSingle(e: CatalogEntry, key: string)
    ensures SearchResults([e], key) == if Matches(e, key) then [Candidate(e)] else []
  {
    assert [e][1..] == [];
  }
}

=== FILE: selection.dfy ===
/** The selection store of `handleSelectProduct` and `handleQuantityChange`:
    toggling a product in and out of the selection, re-deriving the cards'
    highlight, and editing a selected product's quantity. */
module Selection {
  import opened Outcomes
  import opened Numbers
  import opened Records

  function Ids(s: seq<Product>): set<string> {
    set p | p in s :: p.id
  }

  /** No two cards share a product id. */
  predicate UniqueIds(s: seq<Product>) {
    forall i, j :: 0 <= i < j < |s| ==> s[i].id != s[j].id
  }

  /** Two card lists that hold the same ids at the same positions. */
  predicate SameIds(s: seq<Product>, t: seq<Product>) {
    |s| == |t| && forall i :: 0 <= i < |s| ==> s[i].id == t[i].id
  }

  /** `findIndex(p => p.Id === id)`, with `None` for -1: the first position
      holding `id`. */
  function FindIndex(s: seq<Product>, id: string): (r: Option<nat>)
    ensures r.None? <==> id !in Ids(s)
    ensures r.Some? ==> r.value < |s| && s[r.value].id == id
    ensures r.Some? ==> forall j :: 0 <= j < r.value ==> s[j].id != id
  {
    if s == [] then None
    else if s[0].id == id then Some(0)
    else
      assert Ids(s) == {s[0].id} + Ids(s[1..]) by {
        assert forall p :: p in s <==> p == s[0] || p in s[1..];
      }
      match FindIndex(s[1..], id)
      case None => None
      case Some(k) => Some(k + 1)
  }

  /** `find(p => p.Id === id)`: the first card holding `id`. */
  function Find(s: seq<Product>, id: string): (r: Option<Product>)
    ensures r.None? <==> id !in Ids(s)
    ensures r.Some? ==> r.value in s && r.value.id == id
    ensures r.Some? ==> exists i :: 0 <= i < |s| && s[i] == r.value && forall j :: 0 <= j < i ==> s[j].id != id
  {
    match FindIndex(s, id)
    case None => None
    case Some(i) => Some(s[i])
  }

  /** `splice(i, 1)`: `s` without its element at `i`. */
  function RemoveAt(s: seq<Product>, i: nat): (r: seq<Product>)
    requires i < |s|
    ensures |r| == |s| - 1
    ensures forall j :: 0 <= j < i ==> r[j] == s[j]
    ensures forall j :: i <= j < |r| ==> r[j] == s[j + 1]
  {
    s[..i] + s[i + 1..]
  }

  /** The selection after the user activates the card of `id`: a selected
      product is removed; otherwise the first candidate with that id is
      appended as a copy; an id that is neither selected nor a candidate
      changes nothing. */
  function Toggle(selected: seq<Product>, candidates: seq<Product>, id: string): (r: seq<Product>)
    ensures id in Ids(selected) ==> |r| == |selected| - 1 && forall p :: p in r ==> p in selected
    ensures id !in Ids(selected) && id in Ids(candidates) ==>
              r == selected + [Find(candidates, id).value]
    ensures id !in Ids(selected) && id !in Ids(candidates) ==> r == selected
  {
    match FindIndex(selected, id)
    case Some(i) =>
      var r := RemoveAt(selected, i);
      assert forall p :: p in r ==> p in selected by {
        forall p | p in r ensures p in selected {
          var j :| 0 <= j < |r| && r[j] == p;
          if j < i { assert p == selected[j]; } else { assert p == selected[j + 1]; }
        }
      }
      r
    case None =>
      match Find(candidates, id)
      case Some(p) => selected + [p]
      case None => selected
  }

  /** Toggling a selected id cuts the card holding it out of the selection
      and keeps the others in order; in a selection without duplicates that
      removes exactly the cards with that id. */
  lemma ToggleRemoves(selected: seq<Product>, candidates: seq<Product>, id: string)
    requires UniqueIds(selected) && id in Ids(selected)
    ensures exists i :: 0 <= i < |selected| && selected[i].id == id &&
              Toggle(selected, candidates, id) == selected[..i] + selected[i + 1..]
    ensures forall p :: p in Toggle(selected, candidates, id) <==> p in selected && p.id != id
  {
    var i := FindIndex(selected, id).value;
    var r := Toggle(selected, candidates, id);
    assert r == RemoveAt(selected, i);
    assert r == selected[..i] + selected[i + 1..];
    forall p | p in selected && p.id != id ensures p in r {
      var j :| 0 <= j < |selected| && selected[j] == p;
      if j < i { assert r[j] == p; } else { assert j != i; assert r[j - 1] == p; }
    }
    forall p | p in r ensures p.id != id {
      var j :| 0 <= j < |r| && r[j] == p;
      if j < i { assert p == selected[j]; } else { assert p == selected[j + 1]; }
    }
  }

  /** Toggling keeps ids unique, and the set of selected ids loses `id` when
      it was selected, gains it when a candidate holds it, and is otherwise
      unchanged. */
  lemma ToggleIds(selected: seq<Product>, candidates: seq<Product>, id: string)
    requires UniqueIds(selected)
    ensures var r := Toggle(selected, candidates, id);
      && UniqueIds(r)
      && Ids(r) == if id in Ids(selected) then Ids(selected) - {id}
                   else if id in Ids(candidates) then Ids(selected) + {id}
                   else Ids(selected)
  {
    var r := Toggle(selected, candidates, id);
    if id in Ids(selected) {
      ToggleRemoves(selected, candidates, id);
      var i := FindIndex(selected, id).value;
      assert r == RemoveAt(selected, i);
      forall a, b | 0 <= a < b < |r| ensures r[a].id != r[b].id {
        var a' := if a < i then a else a + 1;
        var b' := if b < i then b else b + 1;
        assert r[a] == selected[a'] && r[b] == selected[b'];
      }
      forall x | x in Ids(selected) - {id} ensures x in Ids(r) {
        var p :| p in selected && p.id == x;
      }
    } else if id in Ids(candidates) {
      var p := Find(candidates, id).value;
      assert forall q :: q in r <==> q in selected || q == p;
      forall a, b | 0 <= a < b < |r| ensures r[a].id != r[b].id {
        if b == |selected| { assert r[a] in selected; }
      }
    }
  }

  /** The cards with their class re-derived from the selection, as the map at
      the end of `handleSelectProduct` does. Order, length and every other
      field are kept. */
  function Highlight(candidates: seq<Product>, selected: seq<Product>): (r: seq<Product>)
    ensures |r| == |candidates|
    ensures forall i :: 0 <= i < |r| ==>
              r[i] == candidates[i].(cssClass := CardClassFor(candidates[i].id in Ids(selected)))
  {
    seq(|candidates|, i requires 0 <= i < |candidates| =>
      candidates[i].(cssClass := CardClassFor(candidates[i].id in Ids(selected))))
  }

  /** A card's class ends in " selected" exactly when its product is in the
      selection it was highlighted against. */
  lemma HighlightMarksSelection(candidates: seq<Product>, selected: seq<Product>, i: nat)
    requires i < |candidates|
    ensures MarkedSelected(Highlight(candidates, selected)[i].cssClass) <==> candidates[i].id in Ids(selected)
  {
    var c := Highlight(candidates, selected)[i].cssClass;
    if candidates[i].id in Ids(selected) {
      assert c == CardClass + SelectedSuffix;
      assert c[|c| - |SelectedSuffix|..] == SelectedSuffix;
    } else {
      assert c == CardClass;
      assert CardClass[|CardClass| - 1] == 'm';
      assert SelectedSuffix[|SelectedSuffix| - 1] == 'd';
    }
  }

  /** Lists with the same ids at the same positions find `id` at the same
      position. */
  lemma {:induction false} FindIndexSameIds(s: seq<Product>, t: seq<Product>, id: string)
    requires SameIds(s, t)
    ensures FindIndex(s, id) == FindIndex(t, id)
    decreases |s|
  {
    if s != [] {
      FindIndexSameIds(s[1..], t[1..], id);
    }
  }

  /** Highlighting keeps the ids in place, so finding a card in the
      highlighted list finds the same product with its class re-derived. */
  lemma FindHighlighted(candidates: seq<Product>, selected: seq<Product>, id: string)
    ensures SameIds(Highlight(candidates, selected), candidates)
    ensures Ids(Highlight(candidates, selected)) == Ids(candidates)
    ensures Find(Highlight(candidates, selected), id).Some? ==>
              Find(candidates, id).Some? &&
              Find(Highlight(candidates, selected), id).value ==
                Find(candidates, id).value.(cssClass := CardClassFor(id in Ids(selected)))
  {
    var h := Highlight(candidates, selected);
    FindIndexSameIds(h, candidates, id);
    assert Ids(h) == Ids(candidates) by {
      forall x | x in Ids(h) ensures x in Ids(candidates) {
        var p :| p in h && p.id == x;
        var i :| 0 <= i < |h| && h[i] == p;
        assert candidates[i] in candidates;
      }
      forall x | x in Ids(candidates) ensures x in Ids(h) {
        var p :| p in candidates && p.id == x;
        var i :| 0 <= i < |candidates| && candidates[i] == p;
        assert h[i] in h;
      }
    }
  }

  /** Toggling the same id twice, with a candidate to pick it from, restores
      the set of selected ids. When the id was not selected the selection is
      restored exactly; when it was, it comes back at the end as a copy of
      the candidate card, so its earlier quantity is gone. */
  lemma {:induction false} ToggleTwice(selected: seq<Product>, candidates: seq<Product>, later: seq<Product>, id: string)
    requires UniqueIds(selected)
    requires id in Ids(candidates) && SameIds(candidates, later)
    ensures var r := Toggle(Toggle(selected, candidates, id), later, id);
            Ids(r) == Ids(selected) && UniqueIds(r)
    ensures id !in Ids(selected) ==> Toggle(Toggle(selected, candidates, id), later, id) == selected
    ensures id in Ids(selected) ==>
              var r := Toggle(Toggle(selected, candidates, id), later, id);
              |r| == |selected| && r[|r| - 1] == Find(later, id).value
  {
    var once := Toggle(selected, candidates, id);
    FindIndexSameIds(candidates, later, id);
    assert id in Ids(later);
    var twice := Toggle(once, later, id);
    if id !in Ids(selected) {
      var p := Find(candidates, id).value;
      assert once == selected + [p];
      assert once[|selected|].id == id;
      assert FindIndex(once, id) == Some(|selected|);
      assert twice == RemoveAt(once, |selected|);
      assert RemoveAt(once, |selected|) == selected;
    } else {
      ToggleIds(selected, candidates, id);
      assert Ids(once) == Ids(selected) - {id};
      assert twice == once + [Find(later, id).value];
      ToggleIds(once, later, id);
      assert Ids(twice) == Ids(selected);
    }
  }

  /** The selection after `handleQuantityChange` on row `index`: that row's
      quantity becomes `parseInt(raw) || 0` and its total the quantity times
      its unit price; every other row, and every other field of the row, is
      kept. An index with no row leaves the selection as it was (the component
      fails with a TypeError before it assigns anything). */
  function SetQuantity(selected: seq<Product>, index: int, raw: string): (r: seq<Product>)
    ensures |r| == |selected| && SameIds(r, selected)
    ensures forall j :: 0 <= j < |r| && j != index ==> r[j] == selected[j]
    ensures 0 <= index < |r| ==>
              && r[index].quantity == QuantityOf(raw)
              && Priced(r[index])
              && r[index].(quantity := 0, totalPrice := 0) == selected[index].(quantity := 0, totalPrice := 0)
  {
    if 0 <= index < |selected| then
      var q := QuantityOf(raw);
      selected[index := selected[index].(quantity := q, totalPrice := q * selected[index].unitPrice)]
    else
      selected
  }

  /** Lists with the same ids at the same positions have the same id set and
      are equally free of duplicates. */
  lemma SameIdsKeepsIds(s: seq<Product>, t: seq<Product>)
    requires SameIds(s, t)
    ensures Ids(s) == Ids(t)
    ensures UniqueIds(s) <==> UniqueIds(t)
  {
    forall x | x in Ids(s) ensures x in Ids(t) {
      var p :| p in s && p.id == x;
      var i :| 0 <= i < |s| && s[i] == p;
      assert t[i] in t;
    }
    forall x | x in Ids(t) ensures x in Ids(s) {
      var p :| p in t && p.id == x;
      var i :| 0 <= i < |t| && t[i] == p;
      assert s[i] in s;
    }
  }
}

=== FILE: text.dfy ===
/** Character and string helpers: the whitespace class of ECMAScript, `trim`,
    `toLowerCase`, `includes` and `replace(/\s+/g, '_')`. */
module Text {

  /** The WhiteSpace and LineTerminator code points of ECMAScript: the set that
      `trim`, `parseInt` and the regular-expression class `\s` all skip. */
  predicate IsWhitespace(c: char) {
    var n := c as int;
    n == 0x09 || n == 0x0A || n == 0x0B || n == 0x0C || n == 0x0D || n == 0x20
    || n == 0xA0 || n == 0x1680 || (0x2000 <= n <= 0x200A) || n == 0x2028 || n == 0x2029
    || n == 0x202F || n == 0x205F || n == 0x3000 || n == 0xFEFF
  }

  predicate NoWhitespace(s: string) {
    forall i :: 0 <= i < |s| ==> !IsWhitespace(s[i])
  }

  predicate AllWhitespace(s: string) {
    forall i :: 0 <= i < |s| ==> IsWhitespace(s[i])
  }

  /** The length of the whitespace run `s` starts with. */
  function LeadingRun(s: string): (k: nat)
    ensures k <= |s| && AllWhitespace(s[..k])
    ensures k == |s| || !IsWhitespace(s[k])
  {
    if |s| > 0 && IsWhitespace(s[0]) then
      var k := 1 + LeadingRun(s[1..]);
      assert forall j :: 1 <= j < k ==> s[..k][j] == s[1..][..k - 1][j - 1];
      k
    else
      0
  }

  /** The length of the whitespace run `s` ends with. */
  function TrailingRun(s: string): (k: nat)
    ensures k <= |s| && AllWhitespace(s[|s| - k..])
    ensures k == |s| || !IsWhitespace(s[|s| - k - 1])
  {
    if |s| > 0 && IsWhitespace(s[|s| - 1]) then
      var k := 1 + TrailingRun(s[..|s| - 1]);
      assert s[|s| - k..] == s[..|s| - 1][|s| - k..] + [s[|s| - 1]];
      k
    else
      0
  }

  /** `s` without its leading whitespace. */
  function TrimStart(s: string): (r: string)
    ensures r == [] || !IsWhitespace(r[0])
  {
    s[LeadingRun(s)..]
  }

  /** `s` without its trailing whitespace. */
  function TrimEnd(s: string): (r: string)
    ensures r == [] || !IsWhitespace(r[|r| - 1])
  {
    s[..|s| - TrailingRun(s)]
  }

  /** `String.prototype.trim`: neither starts nor ends with whitespace. */
  function Trim(s: string): (r: string)
    ensures r == [] || (!IsWhitespace(r[0]) && !IsWhitespace(r[|r| - 1]))
  {
    var t := TrimStart(s);
    var r := TrimEnd(t);
    assert r != [] ==> r[0] == t[0];
    r
  }

  /** `r` is `s` with a whitespace prefix of length `i` and a whitespace
      suffix cut off. */
  predicate Framed(s: string, r: string, i: int) {
    && 0 <= i <= |s| - |r|
    && s == s[..i] + r + s[i + |r|..]
    && AllWhitespace(s[..i]) && AllWhitespace(s[i + |r|..])
  }

  /** The trimmed string sits inside `s` between a whitespace prefix and a
      whitespace suffix. */
  lemma TrimInside(s: string)
    ensures exists i :: Framed(s, Trim(s), i)
  {
    var a := LeadingRun(s);
    var t := TrimStart(s);
    var b := TrailingRun(t);
    assert Trim(s) == t[..|t| - b];
    SliceOfSuffix(s, a, b);
    CutFrame(s, a, b);
  }

  lemma SliceOfSuffix(s: string, a: nat, b: nat)
    requires a + b <= |s|
    ensures s[a..][..|s| - a - b] == s[a..|s| - b]
    ensures s[a..][|s| - a - b..] == s[|s| - b..]
  {
  }

  lemma CutFrame(s: string, a: nat, b: nat)
    requires a + b <= |s| && AllWhitespace(s[..a]) && AllWhitespace(s[|s| - b..])
    ensures Framed(s, s[a..|s| - b], a)
  {
    var r := s[a..|s| - b];
    assert s[a + |r|..] == s[|s| - b..];
    assert s[..a] + r + s[|s| - b..] == s;
  }

  /** Trimming leaves nothing exactly when `s` is all whitespace. */
  lemma TrimEmpty(s: string)
    ensures Trim(s) == [] <==> AllWhitespace(s)
  {
    var a := LeadingRun(s);
    var t := s[a..];
    if Trim(s) == [] {
      var b := TrailingRun(t);
      assert b == |t|;
      assert t[|t| - b..] == t;
      assert t == [];
      assert s[..a] == s;
    } else {
      assert !IsWhitespace(Trim(s)[0]);
      assert Trim(s)[0] == t[0] == s[a];
    }
  }

  /** ASCII case folding: the part of `toLowerCase` this model covers. */
  function LowerChar(c: char): char {
    if 'A' <= c <= 'Z' then (c as int + 32) as char else c
  }

  /** `String.prototype.toLowerCase` over ASCII letters; every other
      character is kept. */
  function Lower(s: string): (r: string)
    ensures |r| == |s|
    ensures forall i :: 0 <= i < |s| ==> r[i] == LowerChar(s[i])
  {
    seq(|s|, i requires 0 <= i < |s| => LowerChar(s[i]))
  }

  /** `hay.includes(needle)`: `needle` occurs at some position of `hay`. */
  function Contains(hay: string, needle: string): (b: bool)
    ensures needle == [] ==> b
    ensures b ==> |needle| <= |hay|
  {
    assert needle == [] ==> OccursAt(hay, needle, 0);
    exists i :: 0 <= i <= |hay| && OccursAt(hay, needle, i)
  }

  predicate OccursAt(hay: string, needle: string, i: int) {
    0 <= i <= |hay| - |needle| && hay[i..i + |needle|] == needle
  }

  /** `s.replace(/\s+/g, '_')`: every maximal run of whitespace becomes a
      single underscore. The result has no whitespace, and a string without
      whitespace is its own image, so applying the replacement twice changes
      nothing more. */
  function CollapseWhitespace(s: string): (r: string)
    ensures NoWhitespace(r)
    ensures |r| <= |s|
    ensures NoWhitespace(s) ==> r == s
    decreases |s|
  {
    if s == [] then []
    else if IsWhitespace(s[0]) then
      "_" + CollapseWhitespace(TrimStart(s))
    else
      [s[0]] + CollapseWhitespace(s[1..])
  }

  /** Dropping a non-empty whitespace run in front of a string that does not
      start with whitespace leaves exactly that string. */
  lemma {:induction false} TrimStartRun(run: string, rest: string)
    requires AllWhitespace(run)
    requires rest == [] || !IsWhitespace(rest[0])
    ensures TrimStart(run + rest) == rest
    decreases |run|
  {
    if run == [] {
      assert run + rest == rest;
    } else {
      assert (run + rest)[1..] == run[1..] + rest;
      TrimStartRun(run[1..], rest);
    }
  }

  /** The replacement acts run by run: a word, then a maximal whitespace run,
      then the rest, becomes the word, one underscore, and the rest replaced. */
  lemma {:induction false} CollapseRun(word: string, run: string, rest: string)
    requires NoWhitespace(word)
    requires run != [] && AllWhitespace(run)
    requires rest == [] || !IsWhitespace(rest[0])
    ensures CollapseWhitespace(word + run + rest) == word + "_" + CollapseWhitespace(rest)
    decreases |word|
  {
    if word == [] {
      assert word + run + rest == run + rest;
      TrimStartRun(run, rest);
    } else {
      var s := word + run + rest;
      assert s[0] == word[0];
      assert s[1..] == word[1..] + run + rest;
      CollapseRun(word[1..], run, rest);
      assert word == [word[0]] + word[1..];
    }
  }

  /** Replacing whitespace runs is idempotent. */
  lemma CollapseIdempotent(s: string)
    ensures CollapseWhitespace(CollapseWhitespace(s)) == CollapseWhitespace(s)
  {
  }
}

=== FILE: wizard.dfy ===
/** The quote wizard: its state, one transition per event handler, and the
    save pipeline of `handleSaveQuote`. Each transition is a pure function
    from the state before the event to the state after it; the handlers that
    talk to the outside world also return the effects they cause, in order.
    Replies of the remote services are parameters. */
module Wizard {
  import opened Outcomes
  import opened Text
  import opened Records
  import opened Search
  import opened Selection
  import opened Draft
  import opened Document

  /** `currentStep`: "1" pick products, "2" set quantities, "3" review. */
  datatype Page = Step1 | Step2 | Step3

  /** The component's fields. `pdfReady` is `jsPDFInitialized`. */
  datatype State = State(
    filtered: seq<Product>,
    selected: seq<Product>,
    lineItems: seq<LineItem>,
    totalAmount: int,
    searchKey: string,
    step: Page,
    quoteId: Option<string>,
    quoteName: Option<string>,
    pdfReady: bool)

  /** The variant of a toast notification. */
  datatype Variant = Success | Error

  /** A line as sent to `createQuote`: the line total is left out. */
  datatype QuoteLine = QuoteLine(productId: string, productName: string, quantity: int, unitPrice: int)

  /** The quote record `createQuote` returns; an empty name stands for a
      missing one. */
  datatype QuoteRecord = QuoteRecord(id: string, name: string)

  /** What a handler does to the world outside the component. */
  datatype Effect =
    | LookupProducts
    | Toast(title: string, message: string, variant: Variant)
    | LogError
    | CreateQuote(lines: seq<QuoteLine>)
    | SavePdf(quoteId: string, payload: string, fileName: string)
    | Download(payload: string, fileName: string)
    | Confetti

  /** The state after a handler and the effects it caused, in order. */
  datatype Turn = Turn(state: State, effects: seq<Effect>)

  /** How a product card was activated: a click, or a key press. */
  datatype Gesture = Click | KeyDown(key: string)

  /** The state of a freshly created component. */
  const Initial: State := State([], [], [], 0, "", Step1, None, None, false)

  /** Only Enter and Space activate a card from the keyboard. */
  predicate Activates(g: Gesture) {
    !g.KeyDown? || g.key == "Enter" || g.key == " "
  }

  /** `error.body?.message || error.message`, the search toast's text. */
  function SearchFaultText(f: Fault): (m: string)
    ensures f.body != "" ==> m == f.body
    ensures f.body == "" ==> m == f.message
  {
    if f.body != "" then f.body else f.message
  }

  /** `error.body?.message || error.message || 'Unknown error'`, the save
      toast's text, which is never empty. */
  function SaveFaultText(f: Fault): (m: string)
    ensures m != ""
    ensures f.body != "" ==> m == f.body
    ensures f.body == "" && f.message != "" ==> m == f.message
    ensures f.body == "" && f.message == "" ==> m == "Unknown error"
  {
    if f.body != "" then f.body else if f.message != "" then f.message else "Unknown error"
  }

  /** `resetWizard`: every field back to its initial value except whether the
      PDF libraries are loaded. */
  function Reset(s: State): (r: State)
    ensures r.pdfReady == s.pdfReady && r.(pdfReady := false) == Initial
  {
    State([], [], [], 0, "", Step1, None, None, s.pdfReady)
  }

  /** `connectedCallback`: when the libraries are not loaded yet, a successful
      load marks them loaded and a failed one reports it; nothing else changes. */
  function Connect(s: State, load: Reply<()>): (t: Turn)
    ensures s.pdfReady ==> t == Turn(s, [])
    ensures t.state.(pdfReady := s.pdfReady) == s
    ensures t.state.pdfReady <==> s.pdfReady || load.Ok?
    ensures !s.pdfReady && load.Ok? ==> t.effects == []
    ensures !s.pdfReady && load.Fail? ==>
              t.effects == [Toast("Error", "Failed to load PDF libraries", Error), LogError]
  {
    if s.pdfReady then Turn(s, [])
    else match load
      case Ok(_) => Turn(s.(pdfReady := true), [])
      case Fail(_) => Turn(s, [Toast("Error", "Failed to load PDF libraries", Error), LogError])
  }

  /** `handleSearchKeyUp`. Keys other than Enter (key code 13) do nothing.
      On Enter the key becomes the trimmed, lower-cased input; a blank input
      clears the candidates without asking for products; otherwise the
      product lookup runs and its entries are filtered by the key. A failed
      lookup is reported and leaves the candidates as they were. Only the
      candidates and the key change. */
  function SearchKeyUp(s: State, keyCode: int, value: string, lookup: Reply<seq<CatalogEntry>>): (t: Turn)
    ensures keyCode != 13 ==> t == Turn(s, [])
    ensures t.state.(filtered := s.filtered, searchKey := s.searchKey) == s
    ensures keyCode == 13 ==> t.state.searchKey == Lower(Trim(value))
    ensures keyCode == 13 && AllWhitespace(value) ==> t.state.filtered == [] && t.effects == []
    ensures LookupProducts in t.effects <==> keyCode == 13 && !AllWhitespace(value)
    ensures keyCode == 13 && !AllWhitespace(value) && lookup.Ok? ==>
              t.state.filtered == SearchResults(lookup.value, Lower(Trim(value)))
    ensures keyCode == 13 && !AllWhitespace(value) && lookup.Ok? ==> t.effects == [LookupProducts]
    ensures !(keyCode == 13 && AllWhitespace(value)) && lookup.Fail? ==> t.state.filtered == s.filtered
    ensures keyCode == 13 && !AllWhitespace(value) && lookup.Fail? ==>
              t.effects == [LookupProducts, Toast("Error", SearchFaultText(lookup.fault), Error)]
  {
    if keyCode != 13 then Turn(s, [])
    else
      var key := Lower(Trim(value));
      var s1 := s.(searchKey := key);
      if key == [] then Turn(s1.(filtered := []), [])
      else match lookup
        case Ok(data) => Turn(s1.(filtered := SearchResults(data, key)), [LookupProducts])
        case Fail(f) => Turn(s1, [LookupProducts, Toast("Error", SearchFaultText(f), Error)])
  }

  /** `handleSelectProduct`: a gesture that is not a click, Enter or Space
      does nothing; otherwise `id` is toggled in the selection and every
      candidate's class is re-derived from the new selection. */
  function SelectProduct(s: State, g: Gesture, id: string): (r: State)
    ensures !Activates(g) ==> r == s
    ensures r.(filtered := s.filtered, selected := s.selected) == s
    ensures Activates(g) ==> r.selected == Toggle(s.selected, s.filtered, id)
    ensures Activates(g) ==> r.filtered == Highlight(s.filtered, r.selected)
  {
    if !Activates(g) then s
    else
      var selected := Toggle(s.selected, s.filtered, id);
      s.(selected := selected, filtered := Highlight(s.filtered, selected))
  }

  /** `handleQuantityChange` on row `index` of the selection. */
  function QuantityChange(s: State, index: int, raw: string): (r: State)
    ensures r.(selected := s.selected) == s
    ensures r.selected == SetQuantity(s.selected, index, raw)
  {
    s.(selected := SetQuantity(s.selected, index, raw))
  }

  /** `goToStep1`: only the step changes. */
  function GoToStep1(s: State): (r: State)
    ensures r.step == Step1 && r.(step := s.step) == s
  {
    s.(step := Step1)
  }

  /** `goToStep2`: only the step changes. */
  function GoToStep2(s: State): (r: State)
    ensures r.step == Step2 && r.(step := s.step) == s
  {
    s.(step := Step2)
  }

  /** `goToStep3`: the line items become the selected products with a
      positive quantity, in selection order, and the total becomes the sum of
      their line totals, which is the quantity-times-price amount of the
      selection when every selected product is priced. The selection is left
      as it is. */
  function GoToStep3(s: State): (r: State)
    ensures r.step == Step3
    ensures r.(lineItems := s.lineItems, totalAmount := s.totalAmount, step := s.step) == s
    ensures r.lineItems == LineItems(s.selected)
    ensures r.totalAmount == Total(r.lineItems)
    ensures (forall p :: p in s.selected ==> Priced(p)) ==> r.totalAmount == Revenue(s.selected)
  {
    var items := LineItems(s.selected);
    assert (forall p :: p in s.selected ==> Priced(p)) ==> Total(items) == Revenue(s.selected) by {
      if forall p :: p in s.selected ==> Priced(p) { DraftTotal(s.selected); }
    }
    s.(lineItems := items, totalAmount := Total(items), step := Step3)
  }

  /** The lines sent to `createQuote`: each line item without its total. */
  function QuoteLines(items: seq<LineItem>): (r: seq<QuoteLine>)
    ensures |r| == |items|
    ensures forall i :: 0 <= i < |items| ==>
              r[i] == QuoteLine(items[i].productId, items[i].productName, items[i].quantity, items[i].unitPrice)
  {
    seq(|items|, i requires 0 <= i < |items| =>
      QuoteLine(items[i].productId, items[i].productName, items[i].quantity, items[i].unitPrice))
  }

  /** `quoteRecord.Name || "Quote_" + quoteRecord.Id`: never empty. */
  function QuoteName(rec: QuoteRecord): (n: string)
    ensures n != ""
    ensures rec.name != "" ==> n == rec.name
    ensures rec.name == "" ==> n == "Quote_" + rec.id
  {
    if rec.name != "" then rec.name else "Quote_" + rec.id
  }

  /** The effects of a failure caught by `handleSaveQuote`. */
  function SaveFailed(f: Fault): seq<Effect> {
    [ErrorToast(f), LogError]
  }

  function ErrorToast(f: Fault): Effect {
    Toast("Error", SaveFaultText(f), Error)
  }

  /** Whether every step of the save pipeline succeeds. */
  predicate Saves(s: State, create: Reply<QuoteRecord>, save: Reply<()>) {
    create.Ok? && s.pdfReady && save.Ok?
  }

  /** The fault `handleSaveQuote` catches when the pipeline stops early. */
  function FailureOf(s: State, create: Reply<QuoteRecord>, save: Reply<()>): Fault {
    if create.Fail? then create.fault
    else if !s.pdfReady then Fault("", "PDF library not loaded")
    else if save.Fail? then save.fault
    else Fault("", "")
  }

  /** `handleSaveQuote`: create the quote, build the document (failing when
      the PDF library is not loaded), name the file, save the document
      against the quote, download it, fire the confetti when its library
      defined it, and reset the wizard. The first failing step ends the
      pipeline with an error toast and nothing after it happens.
      `render` stands for the PDF library turning the document into its
      base64 payload; `date` is the day's date. The quote is always created
      first, a successful run leaves the reset state, and a failing one
      leaves the step, the selection and the line items alone. */
  function SaveQuote(s: State, create: Reply<QuoteRecord>, render: Pdf -> string, date: string,
                     save: Reply<()>, confettiDefined: bool): (t: Turn)
    ensures |t.effects| >= 3 && t.effects[0] == CreateQuote(QuoteLines(s.lineItems))
    ensures Saves(s, create, save) ==> t.state == Reset(s)
    ensures !Saves(s, create, save) ==> t.state.(quoteId := s.quoteId, quoteName := s.quoteName) == s
  {
    var creating := CreateQuote(QuoteLines(s.lineItems));
    match create
    case Fail(f) => Turn(s, [creating, ErrorToast(f), LogError])
    case Ok(rec) =>
      var name := QuoteName(rec);
      var s1 := s.(quoteId := Some(rec.id), quoteName := Some(name));
      var created := Toast("Success", "Quote created: " + name, Success);
      if !s1.pdfReady then
        Turn(s1, [creating, created, ErrorToast(Fault("", "PDF library not loaded")), LogError])
      else
        var payload := render(BuildPdf(s1.lineItems, s1.totalAmount, date));
        var fileName := FileName(s1.lineItems, name, rec.id);
        var saving := SavePdf(rec.id, payload, fileName);
        match save
        case Fail(f) => Turn(s1, [creating, created, saving, ErrorToast(f), LogError])
        case Ok(_) =>
          Turn(Reset(s1), [creating, created, saving, Download(payload, fileName)]
                          + (if confettiDefined then [Confetti] else []))
  }

  /** A save that fails at any step ends with the error toast for that step's
      fault and never downloads the document or fires the confetti. A failed
      `createQuote` changes nothing and saves no document; after a created
      quote the wizard records its id and name. The effects of each failing
      step are given in full: what ran before the failure, then the toast and
      the log, and nothing announced that did not happen. */
  lemma SaveQuoteFailure(s: State, create: Reply<QuoteRecord>, render: Pdf -> string, date: string,
                         save: Reply<()>, confettiDefined: bool)
    requires !Saves(s, create, save)
    ensures var t := SaveQuote(s, create, render, date, save, confettiDefined);
            && t.effects[|t.effects| - 2..] == SaveFailed(FailureOf(s, create, save))
            && forall e :: e in t.effects ==> !e.Download? && !e.Confetti?
    ensures var t := SaveQuote(s, create, render, date, save, confettiDefined);
            create.Fail? ==> t.state == s && forall e :: e in t.effects ==> !e.SavePdf?
    ensures var t := SaveQuote(s, create, render, date, save, confettiDefined);
            create.Ok? ==> t.state.quoteId == Some(create.value.id) && t.state.quoteName == Some(QuoteName(create.value))
    ensures var t := SaveQuote(s, create, render, date, save, confettiDefined);
            create.Fail? ==> t.effects == [CreateQuote(QuoteLines(s.lineItems)), ErrorToast(create.fault), LogError]
    ensures var t := SaveQuote(s, create, render, date, save, confettiDefined);
            create.Ok? && s.pdfReady && save.Fail? ==>
              t.effects == [ CreateQuote(QuoteLines(s.lineItems)),
                             Toast("Success", "Quote created: " + QuoteName(create.value), Success),
                             SavePdf(create.value.id, render(BuildPdf(s.lineItems, s.totalAmount, date)),
                                     FileName(s.lineItems, QuoteName(create.value), create.value.id)),
                             ErrorToast(save.fault),
                             LogError ]
  {
    var t := SaveQuote(s, create, render, date, save, confettiDefined);
    var f := FailureOf(s, create, save);
    if create.Fail? {
      assert |t.effects| == 3;
    } else if !s.pdfReady {
      assert |t.effects| == 4;
    } else {
      assert |t.effects| == 5;
    }
    assert t.effects[|t.effects| - 2..] == SaveFailed(f);
  }

  /** A created quote that cannot be rendered because the PDF library is not
      loaded is announced, then the toast "PDF library not loaded" and the
      log follow; the step is kept, and nothing is saved or downloaded. */
  lemma SaveWithoutLibrary(s: State, create: Reply<QuoteRecord>, render: Pdf -> string, date: string,
                           save: Reply<()>, confettiDefined: bool)
    requires create.Ok? && !s.pdfReady
    ensures var t := SaveQuote(s, create, render, date, save, confettiDefined);
            && t.effects == [ CreateQuote(QuoteLines(s.lineItems)),
                              Toast("Success", "Quote created: " + QuoteName(create.value), Success),
                              Toast("Error", "PDF library not loaded", Error),
                              LogError ]
            && t.state.step == s.step
            && forall e :: e in t.effects ==> !e.SavePdf? && !e.Download? && !e.Confetti?
  {
  }

  /** A save whose every step succeeds creates the quote, announces it,
      saves the rendered document under the generated file name against the
      new quote id, downloads that same document under that same name, then
      fires the confetti if it can, in this order. */
  lemma SaveQuoteSuccess(s: State, create: Reply<QuoteRecord>, render: Pdf -> string, date: string,
                         save: Reply<()>, confettiDefined: bool)
    requires Saves(s, create, save)
    ensures var t := SaveQuote(s, create, render, date, save, confettiDefined);
            var payload := render(BuildPdf(s.lineItems, s.totalAmount, date));
            var fileName := FileName(s.lineItems, QuoteName(create.value), create.value.id);
            t.effects == [ CreateQuote(QuoteLines(s.lineItems)),
                           Toast("Success", "Quote created: " + QuoteName(create.value), Success),
                           SavePdf(create.value.id, payload, fileName),
                           Download(payload, fileName) ]
                         + (if confettiDefined then [Confetti] else [])
  {
  }

  /** What the model keeps true in every state the wizard can reach: selected
      ids are unique, every selected product is priced, candidates carry no
      quantity, every line item has a positive quantity and is priced, and
      the total is the sum of the line totals. */
  predicate Inv(s: State) {
    && UniqueIds(s.selected)
    && (forall p :: p in s.selected ==> Priced(p))
    && (forall p :: p in s.filtered ==> p.quantity == 0 && p.totalPrice == 0)
    && (forall li :: li in s.lineItems ==> li.quantity > 0 && LinePriced(li))
    && s.totalAmount == Total(s.lineItems)
  }

  /** One event the component handles, with the replies of the outside world
      it meets. */
  datatype Action =
    | Load(load: Reply<()>)
    | KeyUp(keyCode: int, value: string, lookup: Reply<seq<CatalogEntry>>)
    | Select(gesture: Gesture, id: string)
    | EditQuantity(index: int, raw: string)
    | ToStep1
    | ToStep2
    | ToStep3
    | Save(create: Reply<QuoteRecord>, render: Pdf -> string, date: string, save: Reply<()>, confettiDefined: bool)

  /** The handler of an event. */
  function Apply(s: State, a: Action): Turn {
    match a
    case Load(load) => Connect(s, load)
    case KeyUp(keyCode, value, lookup) => SearchKeyUp(s, keyCode, value, lookup)
    case Select(g, id) => Turn(SelectProduct(s, g, id), [])
    case EditQuantity(index, raw) => Turn(QuantityChange(s, index, raw), [])
    case ToStep1 => Turn(GoToStep1(s), [])
    case ToStep2 => Turn(GoToStep2(s), [])
    case ToStep3 => Turn(GoToStep3(s), [])
    case Save(create, render, date, save, confettiDefined) =>
      SaveQuote(s, create, render, date, save, confettiDefined)
  }

  /** The state after a sequence of events. */
  function Run(s: State, actions: seq<Action>): State
    decreases |actions|
  {
    if actions == [] then s else Run(Apply(s, actions[0]).state, actions[1..])
  }

  lemma SelectKeepsInv(s: State, g: Gesture, id: string)
    requires Inv(s)
    ensures Inv(SelectProduct(s, g, id))
  {
    if Activates(g) {
      var r := SelectProduct(s, g, id);
      ToggleIds(s.selected, s.filtered, id);
      forall p | p in r.selected ensures Priced(p) {
        if p !in s.selected {
          assert p == Find(s.filtered, id).value;
        }
      }
      forall p | p in r.filtered ensures p.quantity == 0 && p.totalPrice == 0 {
        var i :| 0 <= i < |r.filtered| && r.filtered[i] == p;
        assert s.filtered[i] in s.filtered;
      }
    }
  }

  lemma QuantityChangeKeepsInv(s: State, index: int, raw: string)
    requires Inv(s)
    ensures Inv(QuantityChange(s, index, raw))
  {
    var r := QuantityChange(s, index, raw);
    SameIdsKeepsIds(r.selected, s.selected);
    forall p | p in r.selected ensures Priced(p) {
      var j :| 0 <= j < |r.selected| && r.selected[j] == p;
      if j != index { assert s.selected[j] in s.selected; }
    }
  }

  lemma SearchKeepsInv(s: State, keyCode: int, value: string, lookup: Reply<seq<CatalogEntry>>)
    requires Inv(s)
    ensures Inv(SearchKeyUp(s, keyCode, value, lookup).state)
  {
    var r := SearchKeyUp(s, keyCode, value, lookup).state;
    assert r.selected == s.selected && r.lineItems == s.lineItems && r.totalAmount == s.totalAmount;
  }

  lemma GoToStep3KeepsInv(s: State)
    requires Inv(s)
    ensures Inv(GoToStep3(s))
  {
  }

  lemma SaveKeepsInv(s: State, create: Reply<QuoteRecord>, render: Pdf -> string, date: string,
                     save: Reply<()>, confettiDefined: bool)
    requires Inv(s)
    ensures Inv(SaveQuote(s, create, render, date, save, confettiDefined).state)
  {
    var r := SaveQuote(s, create, render, date, save, confettiDefined).state;
    if Saves(s, create, save) {
      assert r == Reset(s);
      ResetKeepsInv(s);
    } else {
      assert r.(quoteId := s.quoteId, quoteName := s.quoteName) == s;
      InvIgnoresQuote(s, r);
    }
  }

  /** The reset state satisfies the invariant. */
  lemma ResetKeepsInv(s: State)
    ensures Inv(Reset(s))
  {
  }

  /** The invariant does not look at the quote id and name. */
  lemma InvIgnoresQuote(s: State, r: State)
    requires Inv(s) && r.(quoteId := s.quoteId, quoteName := s.quoteName) == s
    ensures Inv(r)
  {
    assert r.selected == s.selected && r.filtered == s.filtered;
    assert r.lineItems == s.lineItems && r.totalAmount == s.totalAmount;
  }

  /** Every handler keeps the invariant. */
  lemma ApplyKeepsInv(s: State, a: Action)
    requires Inv(s)
    ensures Inv(Apply(s, a).state)
  {
    match a
    case Load(load) =>
      assert Connect(s, load).state.(pdfReady := s.pdfReady) == s;
    case KeyUp(keyCode, value, lookup) => SearchKeepsInv(s, keyCode, value, lookup);
    case Select(g, id) => SelectKeepsInv(s, g, id);
    case EditQuantity(index, raw) => QuantityChangeKeepsInv(s, index, raw);
    case ToStep1 =>
    case ToStep2 =>
    case ToStep3 => GoToStep3KeepsInv(s);
    case Save(create, render, date, save, confettiDefined) =>
      SaveKeepsInv(s, create, render, date, save, confettiDefined);
  }

  /** The invariant holds in every state reachable from a fresh component. */
  lemma {:induction false} RunKeepsInv(s: State, actions: seq<Action>)
    requires Inv(s)
    ensures Inv(Run(s, actions))
    decreases |actions|
  {
    if actions != [] {
      ApplyKeepsInv(s, actions[0]);
      RunKeepsInv(Apply(s, actions[0]).state, actions[1..]);
    }
  }

  lemma ReachableInv(actions: seq<Action>)
    ensures Inv(Run(Initial, actions))
  {
    RunKeepsInv(Initial, actions);
  }

  /** After a card is activated, a candidate's class ends in " selected"
      exactly when its product is in the new selection; the candidates keep
      their number, order and every other field. */
  lemma SelectHighlights(s: State, g: Gesture, id: string)
    requires Activates(g)
    ensures var r := SelectProduct(s, g, id);
            && |r.filtered| == |s.filtered|
            && (forall i :: 0 <= i < |r.filtered| ==> r.filtered[i].(cssClass := s.filtered[i].cssClass) == s.filtered[i])
            && (forall i :: 0 <= i < |r.filtered| ==> (MarkedSelected(r.filtered[i].cssClass) <==> r.filtered[i].id in Ids(r.selected)))
  {
    var r := SelectProduct(s, g, id);
    forall i | 0 <= i < |r.filtered|
      ensures MarkedSelected(r.filtered[i].cssClass) <==> r.filtered[i].id in Ids(r.selected)
    {
      HighlightMarksSelection(s.filtered, r.selected, i);
    }
  }

  /** A successful search shows every candidate unselected, even products
      that are already in the selection: highlighting does not survive a new
      search. */
  lemma SearchClearsHighlight(s: State, value: string, catalog: seq<CatalogEntry>)
    ensures var r := SearchKeyUp(s, 13, value, Ok(catalog)).state;
            forall p :: p in r.filtered ==> p.cssClass == CardClass && !MarkedSelected(p.cssClass)
  {
    assert !MarkedSelected(CardClass) by {
      assert CardClass[|CardClass| - 1] == 'm';
      assert SelectedSuffix[|SelectedSuffix| - 1] == 'd';
    }
  }

  /** Activating the same candidate twice restores the set of selected ids.
      A product that was not selected leaves the selection exactly as it
      was; one that was selected comes back at the end of the selection as a
      fresh copy of its candidate, with quantity 0 and total 0. */
  lemma SelectTwice(s: State, g: Gesture, id: string)
    requires Inv(s) && Activates(g) && id in Ids(s.filtered)
    ensures var r := SelectProduct(SelectProduct(s, g, id), g, id);
            Ids(r.selected) == Ids(s.selected) && UniqueIds(r.selected)
    ensures id !in Ids(s.selected) ==> SelectProduct(SelectProduct(s, g, id), g, id).selected == s.selected
    ensures var r := SelectProduct(SelectProduct(s, g, id), g, id);
            id in Ids(s.selected) ==>
              && |r.selected| == |s.selected|
              && r.selected[|r.selected| - 1].id == id
              && r.selected[|r.selected| - 1].quantity == 0
              && r.selected[|r.selected| - 1].totalPrice == 0
  {
    var s1 := SelectProduct(s, g, id);
    FindHighlighted(s.filtered, s1.selected, id);
    assert SameIds(s.filtered, s1.filtered) by {
      assert SameIds(s1.filtered, s.filtered);
    }
    ToggleTwice(s.selected, s.filtered, s1.filtered, id);
    SelectKeepsInv(s, g, id);
    var r := SelectProduct(s1, g, id);
    if id in Ids(s.selected) {
      var p := Find(s1.filtered, id).value;
      assert p in s1.filtered;
      assert r.selected[|r.selected| - 1] == p;
    }
  }
}
